=== FILE: README.md ===
# Vehicle rental repository — Dafny model

This project models the core of a small desktop vehicle-rental record keeper.
The core has two parts.

**Vehicle value logic** (`Vehicle.java`):
- the license-plate validator and normaliser;
- the `capitalize` rule applied to make and model;
- the constructor's default status;
- `setStatus`.

**The `RentalSystem` repository.** It holds the vehicle list, the customer list and the rental history. Modelled operations:
- `addVehicle` and `addCustomer`, with their duplicate-key checks;
- the `rentVehicle`/`returnVehicle` state machine (Available ⇄ Rented);
- the lookups `findVehicleByPlate` and `findCustomerById`;
- the one-line-per-record formats of the three data files;
- `loadData`, which rebuilds the repository from those files.

## How the program is represented

- **Vehicle objects.** Vehicles are mutable objects shared by the vehicle list and the rental records. The loader even puts the same object in the list twice. So `Repository.heap` is the store of every vehicle object, indexed by `Ref`. The vehicle list and each `RentalRecord` hold `Ref`s. Customers are never mutated, so they are kept by value.
- **Files.** The three files are sequences of lines inside the repository (`Files`). An operation's contract therefore says exactly which lines it appends. It says so also when it appends none, as for rent and return.
- **Results.** Operations are pure functions. Each returns the boolean result together with the new state (`Change`).
- **Exceptions.** A Java exception becomes a `Result`/`Decoded` value.
  - `Abort` is a `NumberFormatException`. It is caught outside the read loop, so the rest of that file is not read.
  - `Thrown` is an exception nothing catches, so no repository is built.
- **Java library semantics.** These are written out in module `JavaText`:
  - `String.trim`: characters up to U+0020 are removed;
  - ASCII upper- and lower-casing;
  - `equalsIgnoreCase`;
  - `String.split(",")`: it drops trailing empty fields, and "" gives one empty field;
  - `Integer.parseInt` with its `int` range and its optional sign.
- **Loaders.** A loader is the per-line decode (`Codec.Decode*Line`) followed by `Loading.Run`. `Run` consumes the decoded lines in order and stops where the read loop stops. Decoding a line does not depend on the repository, so this is the same as decoding inside the loop.

## Behaviour of the code that the model reproduces

The model reproduces these behaviours of the code as written:
- **Rent and return are not persisted.** `rentVehicle` and `returnVehicle` never call `saveRecord`, so the history lives only in memory. `RentVehicle`/`ReturnVehicle` leave the files unchanged.
- **Malformed lines are not always skipped individually.** Skipping happens only for blank lines and lines with too few fields.
  - A bad integer, or a bad amount in the record file, ends the load of the rest of that file.
  - An unknown vehicle type tag dereferences `null` (RentalSystem.java:287).
  - A bad plate throws `IllegalArgumentException`.
  - A bad date throws `DateTimeParseException`.
  - None of these three exceptions is caught, so no repository is built.
- **A vehicle added without a plate breaks the next load.** `addVehicle` does not require a plate, and `%s` prints the missing plate as `null` (RentalSystem.java:185). Reading that line back fails plate validation and throws, which ends the load (`Loading.PlatelessVehicleBreaksReload`).
- **Every loaded vehicle is listed twice** (RentalSystem.java:281-288). So after any vehicle is loaded, two list entries share a plate (`Loading.LoadedVehiclesRepeated`).
- **Load does not de-duplicate customers.** It also ignores the history when it sets vehicle states: every loaded vehicle is `Available`.
- **A customer with an empty name is saved as `id,`.** That line splits into one field, so the customer is skipped on the next load.
- **A line break inside a field splits the saved line.** `trim` removes white characters only at the ends, so a name, make or model can keep an inner `\n` or `\r`. `printf` then writes that record across several lines, and `readLine` reads them back as separate lines. A file append is therefore modelled as the lines the printed text reads back as (`JavaText.TextLines`). For example, a customer `1` named "a", line break, "b" is reloaded as customer `1` named "a", and the second line is skipped (`Loading.NameWithLineBreakCut`).

## Model

| member | source | states |
|---|---|---|
| JavaText.Trim | RentalProject/src/Vehicle.java:38 | the trimmed text is empty exactly when every character is at most U+0020; otherwise it starts and ends with a character above U+0020 |
| JavaText.TrimPadded | RentalProject/src/Vehicle.java:38 | the input is its trim with a run of characters at most U+0020 before and after it; with the ends `Trim` keeps, these are the longest such runs |
| JavaText.TrimToLower | RentalProject/src/Vehicle.java:38-44 | lower-casing the input before the validator's trim (line 38) gives the same text as lower-casing after it; `Vehicles.PlateIgnoresCase` uses this to carry a lower-cased input through the trim and the upper-casing at line 44 |
| JavaText.ToUpper | RentalProject/src/Vehicle.java:44 | `toUpperCase` keeps the length, maps each ASCII lower-case letter to its upper-case letter and keeps every other character |
| JavaText.ToLower | RentalProject/src/Vehicle.java:76 | `toLowerCase` keeps the length, maps each ASCII upper-case letter to its lower-case letter and keeps every other character |
| JavaText.CaseMapping | RentalProject/src/Vehicle.java:76-77 | of two case mappings applied in a row, the last one decides the result; upper-cased text holds no lower-case letter and lower-cased text no upper-case letter |
| JavaText.EqualsIgnoreCase | RentalProject/src/RentalSystem.java:161 | `equalsIgnoreCase` holds exactly when both texts have the same length and at each position the characters are equal, or equal once upper-cased, or equal once upper-cased and then lower-cased |
| JavaText.SameIgnoringCaseUpper | RentalProject/src/RentalSystem.java:161 | on ASCII, that per-character test agrees with comparing the upper-cased texts |
| JavaText.IsBlank | RentalProject/src/RentalSystem.java:241 | `line.trim().isEmpty()` holds exactly when every character of the line is at most U+0020 |
| JavaText.Split | RentalProject/src/RentalSystem.java:244 | the empty line gives one empty piece; otherwise the pieces are comma-free, the last one is not empty, and joining them with commas gives the line up to trailing commas |
| JavaText.JoinSplitAll | RentalProject/src/RentalSystem.java:244 | joining the pieces of a plain comma split with commas gives back the line |
| JavaText.SplitJoin | RentalProject/src/RentalSystem.java:244 | comma-free fields whose last field is non-empty, joined with commas, split back into exactly those fields |
| JavaText.IntToString | RentalProject/src/RentalSystem.java:189 | `%d` text starts with a minus sign exactly when the value is negative; the rest is the decimal digits of the magnitude, with no leading zero except for `0` itself; it holds no separator or blank |
| JavaText.ParseInt | RentalProject/src/RentalSystem.java:251 | only an optional sign followed by at least one digit is accepted; unsigned and `+` digit strings give their decimal value when it is below 2^31 and are rejected otherwise; `-` digit strings give the negated value when it is at least -2^31 and are rejected otherwise |
| JavaText.ParseIntToString | RentalProject/src/RentalSystem.java:251 | parsing the `%d` text of any `int` gives that `int` back |
| JavaText.TextLines | RentalProject/src/RentalSystem.java:240 | text printed with a trailing line separator reads back as at least one line, none holding a line terminator |
| JavaText.TextLinesUnify | RentalProject/src/RentalSystem.java:240 | the lines read back, joined with `\n`, are the printed text with each `\r\n` and each lone `\r` turned into `\n` and a final `\r` dropped (`Unify`): `\n`, `\r` and `\r\n` each end one line |
| JavaText.TextLinesUnique | RentalProject/src/RentalSystem.java:240 | a non-empty sequence of terminator-free lines joins to the unified text exactly when it is the sequence of lines read back, so the line cutting is fully determined |
| JavaText.JoinLinesInjective | RentalProject/src/RentalSystem.java:240 | two non-empty sequences of terminator-free lines that join to the same text are equal |
| JavaText.JoinTextLines | RentalProject/src/RentalSystem.java:240 | for text without `\r`, the lines read back joined with `\n` give the printed text |
| JavaText.JoinLineText | RentalProject/src/RentalSystem.java:184 | a comma-joined line holds a line terminator exactly when one of its fields does |
| Vehicles.Capitalize | RentalProject/src/Vehicle.java:67-78 | `null` or blank input gives ""; otherwise the result has the trimmed length, equals the trimmed input ignoring case, starts without a lower-case letter and has no upper-case letter after the first |
| Vehicles.CapitalizeFixpoint | RentalProject/src/Vehicle.java:67-78 | text already in capitalised form is returned unchanged |
| Vehicles.CapitalizeIdempotent | RentalProject/src/Vehicle.java:67-78 | capitalising twice equals capitalising once |
| Vehicles.IsValidPlate | RentalProject/src/Vehicle.java:33-46 | a plate is valid exactly when it is present and its trimmed text is three ASCII letters of either case followed by three digits |
| Vehicles.SetLicensePlate | RentalProject/src/Vehicle.java:21-31 | succeeds exactly for valid plates; then the stored plate is the trimmed, upper-cased input, matches `[A-Z]{3}[0-9]{3}`, and no other field changes; otherwise it fails and the vehicle is untouched |
| Vehicles.SetStoredPlate | RentalProject/src/Vehicle.java:28 | setting a plate to the value already stored succeeds and changes nothing |
| Vehicles.PlateTestAccepts | RentalProject/src/VehicleRentalTest.java:12-19 | "AAA100", "ABC567" and "ZZZ999" are accepted and stored verbatim |
| Vehicles.PlateAccepted | RentalProject/src/VehicleRentalTest.java:35 | any text matching `[A-Z]{3}[0-9]{3}` is accepted and stored verbatim |
| Vehicles.PlateTestRejects | RentalProject/src/VehicleRentalTest.java:22-32 | "", `null`, "AAA1000" and "ZZZ99" are rejected |
| Vehicles.PlateIgnoresCase | RentalProject/src/Vehicle.java:43-45 | lower-casing the input changes neither acceptance nor the stored plate |
| Vehicles.New | RentalProject/src/Vehicle.java:10-15 | a new vehicle is `Available`, has no plate, keeps type and year, and has make and model equal to their capitalised arguments |
| Vehicles.NoArgConstructor | RentalProject/src/Vehicle.java:17-19 | the no-argument constructor gives empty make and model, year 0 and status `Available` |
| Vehicles.SetStatus | RentalProject/src/Vehicle.java:49-51 | the status becomes the given one and every other field is kept |
| Vehicles.SetStatusUndo | RentalProject/src/Vehicle.java:49-51 | setting a status and then the old status restores the vehicle exactly |
| Codec.VariantFromTag | RentalProject/src/RentalSystem.java:254-278 | only the tags Car, Minibus and PickupTruck give a vehicle kind, with the fixed defaults 5 seats, not accessible, cargo 100.0 without trailer; the kind's name is the tag |
| Codec.EncodeVehicle | RentalProject/src/RentalSystem.java:184-189 | the vehicle line is a single file line exactly when neither the plate text nor make nor model holds a line terminator |
| Vehicles.SimpleName | RentalProject/src/RentalSystem.java:186 | the saved type name tells the three kinds apart: it is `Car` exactly for cars, `Minibus` exactly for minibuses and `PickupTruck` exactly for pickup trucks |
| Codec.SimpleNameIsTag | RentalProject/src/RentalSystem.java:255-273 | every saved type name is a tag the loader knows, and it reads back as a vehicle of the same kind |
| Codec.PlatelessLineThrows | RentalProject/src/RentalSystem.java:184-185 | a vehicle whose plate was never set is saved with the text `null` as its plate (`Codec.PlateText`), and reading that line back throws the bad-plate fault of line 282 |
| Codec.EncodeCustomer | RentalProject/src/RentalSystem.java:201-203 | the customer line is a single file line exactly when the name holds no line terminator |
| Codec.EncodeRecord | RentalProject/src/RentalSystem.java:215-220 | the record line is a single file line exactly when none of the plate, type, date and amount texts holds a line terminator |
| Codec.StorableLineText | RentalProject/src/RentalSystem.java:184-189 | a vehicle with a valid plate and separator-free make and model is saved as a single line |
| Codec.DecodeVehicleLine | RentalProject/src/RentalSystem.java:241-288 | blank lines and lines with fewer than five fields are skipped; of the rest, exactly those with a bad year abort; an escaping fault is an unknown tag or a bad plate; a decoded vehicle has the kind the tag selects with its default extras (5 seats; not accessible; cargo 100.0 without trailer), is `Available`, and has a valid stored plate and capitalised make and model |
| Codec.VehicleLineFields | RentalProject/src/RentalSystem.java:249-288 | past the field count and year, an unknown tag throws exactly when the tag is not Car, Minibus or PickupTruck, a bad plate throws exactly when a known tag meets an invalid plate, and a decoded vehicle has the tag's kind with its default extras, the trimmed upper-cased plate, the capitalised make and model and the parsed year |
| Codec.VehicleLineRoundTrip | RentalProject/src/RentalSystem.java:184-189 | a saved vehicle with a valid plate and separator-free, capitalised make and model decodes to its plate, make, model, year and type, with the type's default extras and status `Available` |
| Codec.DecodeCustomerLine | RentalProject/src/RentalSystem.java:304-315 | blank and one-field lines are skipped; a bad id aborts; otherwise the customer has the parsed first field as id and the second field as name; it never throws |
| Codec.CustomerLineRoundTrip | RentalProject/src/RentalSystem.java:201-203 | a saved customer with a non-empty, separator-free name decodes to the same customer |
| Codec.EmptyNameCustomerLost | RentalProject/src/RentalSystem.java:304-308 | a saved customer with an empty name is skipped on load |
| Codec.DecodeRecordLine | RentalProject/src/RentalSystem.java:330-340 | blank and short lines are skipped; of the rest, a bad id aborts, then a bad date throws, then a bad amount aborts; a decoded record carries the parsed id, the plate and type fields, and the parsed date and amount |
| Codec.RecordLineRoundTrip | RentalProject/src/RentalSystem.java:215-220 | a record line decodes to the id, plate, type, date and amount it was written from |
| RentalSystem.Empty | RentalProject/src/RentalSystem.java:19-21 | the state before loading has the files as found and meets `Valid`, plate uniqueness, id uniqueness and the status invariant; no lookup by plate or id finds anything |
| RentalSystem.Allocate | RentalProject/src/RentalSystem.java:259-272 | `new Car/Minibus/PickupTruck` gives a fresh reference to the new object, which joins no list; lists, history and files are unchanged and `Valid` is kept |
| RentalSystem.FindVehicleByPlate | RentalProject/src/RentalSystem.java:159-166 | none exactly when no listed plate equals the argument ignoring case; otherwise the first such vehicle in list order |
| RentalSystem.FindCustomerById | RentalProject/src/RentalSystem.java:168-173 | none exactly when no customer has the id; otherwise the first such customer in list order |
| RentalSystem.AddVehicle | RentalProject/src/RentalSystem.java:42-52 | accepted exactly when no listed vehicle has the same plate ignoring case; on acceptance the vehicle is appended, and so are the lines its printed text reads back as; on refusal nothing changes; customers and history never change; `Valid` is preserved when the vehicle has a plate; plate uniqueness is preserved |
| RentalSystem.AddVehiclesKeepPlatesDistinct | RentalProject/src/RentalSystem.java:42-52 | after any series of adds, listed plates are pairwise distinct ignoring case |
| RentalSystem.AddedVehicleFound | RentalProject/src/RentalSystem.java:159-166 | after an accepted add, a lookup by the plate in any case finds the added vehicle |
| RentalSystem.AddCustomer | RentalProject/src/RentalSystem.java:54-64 | accepted exactly when no customer has the same id; on acceptance the customer is appended, and so are the lines its printed text reads back as; on refusal nothing changes; id uniqueness is preserved |
| RentalSystem.AddCustomersKeepIdsDistinct | RentalProject/src/RentalSystem.java:54-64 | after any series of adds, customer ids are pairwise distinct |
| RentalSystem.AddedCustomerFound | RentalProject/src/RentalSystem.java:168-173 | after an accepted add, a lookup by the id finds the added customer |
| RentalSystem.RentVehicle | RentalProject/src/RentalSystem.java:66-76 | succeeds exactly when the vehicle is `Available`; then only its status becomes `Rented` and one RENT record is appended; files and lists never change; on failure nothing changes; keeps "rented exactly when the last record is a RENT" |
| RentalSystem.ReturnVehicle | RentalProject/src/RentalSystem.java:78-88 | succeeds exactly when the vehicle is `Rented`; then only its status becomes `Available` and one RETURN record with the extra fees is appended; files and lists never change; on failure nothing changes; keeps the same history invariant |
| RentalSystem.RentTwice | RentalProject/src/RentalSystem.java:66-76 | renting an available vehicle twice gives true then false, and it stays `Rented` |
| RentalSystem.ReturnAvailableRefused | RentalProject/src/RentalSystem.java:78-88 | returning an `Available` vehicle is refused with no change |
| RentalSystem.RentThenReturn | RentalProject/src/RentalSystem.java:66-88 | rent then return restores every vehicle object, grows the history by exactly RENT then RETURN, and leaves lists and files alone |
| Loading.Run | RentalProject/src/RentalSystem.java:240-290 | a read loop reads to the end exactly when no line aborts or throws; an abort ends it only at an aborting line, and an escaping fault is the fault of some line |
| Loading.RunDecoded | RentalProject/src/RentalSystem.java:240-290 | the same, stated over the lines of the file through the per-line decoder |
| Loading.RunAppend | RentalProject/src/RentalSystem.java:239-291 | reading two line blocks equals reading the first and, only if it was read to the end, the second from the state it left |
| Loading.AbortIgnoresRest | RentalProject/src/RentalSystem.java:290 | after a line that aborts, the lines that follow have no effect |
| Loading.AddLoadedVehicle | RentalProject/src/RentalSystem.java:281-288 | one new object is created and listed twice; customers, history and files are kept |
| Loading.LoadVehicles | RentalProject/src/RentalSystem.java:232-293 | the vehicle file is read to its end exactly when every line is skipped or decoded; an abort comes from a line with a bad year; the only escaping faults are an unknown tag and a bad plate |
| Loading.LoadVehiclesKeeps | RentalProject/src/RentalSystem.java:232-293 | loading vehicles keeps existing objects, customers, history and files |
| Loading.LoadVehiclesDoubles | RentalProject/src/RentalSystem.java:281-288 | the list grows by each new object twice in a row, in file order |
| Loading.LoadVehiclesValid | RentalProject/src/RentalSystem.java:281-288 | loading vehicles keeps `Valid`, and keeps every object `Available` |
| Loading.LoadedVehiclesRepeated | RentalProject/src/RentalSystem.java:281-288 | once any vehicle is loaded, two listed vehicles share a plate |
| Loading.LoadedVehicleFileRepeated | RentalProject/src/RentalSystem.java:232-293 | the same, for a vehicle file |
| Loading.RunVehicleItems | RentalProject/src/RentalSystem.java:239-288 | lines that all decode to vehicles are read to the end, creating those vehicles in order |
| Loading.SavedVehiclesReload | RentalProject/src/RentalSystem.java:232-293 | a file of saved vehicles loads completely, one vehicle per line, in order, each with the saved plate, make, model, year and kind, the kind's default extras and status `Available` |
| Loading.PlatelessVehicleBreaksReload | RentalProject/src/RentalSystem.java:42-52 | `addVehicle` accepts a vehicle whose plate was never set; a later load that reads the old vehicle file to its end then stops on the new line with the bad-plate fault |
| Loading.ThrowingLineEndsLoad | RentalProject/src/RentalSystem.java:240-290 | a vehicle line that throws, read after lines that were all read, ends the load with that line's fault |
| Loading.AddedVehicleReloads | RentalProject/src/RentalSystem.java:49-50 | a storable vehicle accepted by `addVehicle` is recreated by the next load, after the ones loaded before it, with its plate, make, model, year and kind, the kind's default extras and status `Available` |
| Loading.AddLoadedCustomer | RentalProject/src/RentalSystem.java:313-314 | the loop body: every decoded customer is appended, with no check of its id; the consequences over a whole file are in `Loading.RunCustomerItems` and `Loading.DuplicateCustomerLoadedTwice` |
| Loading.LoadCustomers | RentalProject/src/RentalSystem.java:295-319 | the customer file never throws, and is read to its end exactly when no line has a bad id |
| Loading.LoadCustomersOnlyAppends | RentalProject/src/RentalSystem.java:295-319 | loading customers only appends customers and never crashes |
| Loading.RunCustomerItems | RentalProject/src/RentalSystem.java:302-316 | lines that all decode to customers are read to the end, appending exactly those customers |
| Loading.SavedCustomersReload | RentalProject/src/RentalSystem.java:295-319 | a file of saved customers loads completely to exactly those customers, in order |
| Loading.DuplicateCustomerLoadedTwice | RentalProject/src/RentalSystem.java:304-315 | a customer saved twice is loaded twice, so ids are no longer distinct |
| Loading.AddedCustomerReloads | RentalProject/src/RentalSystem.java:61-62 | a customer with a non-empty, separator-free name accepted by `addCustomer` is the last customer of the next load |
| Loading.NameWithLineBreakCut | RentalProject/src/RentalSystem.java:201-203 | customer 1 named "a", line break, "b" is saved as the two lines `1,a` and `b`; these reload as customer 1 named "a" and a skipped line |
| Loading.AddLoadedRecord | RentalProject/src/RentalSystem.java:342-351 | the loop body: a record is skipped exactly when its plate or id does not resolve; otherwise it is appended with the found vehicle and customer; over a whole file, `Loading.LoadRecordsOnlyAppends` |
| Loading.LoadRecords | RentalProject/src/RentalSystem.java:321-356 | the only fault escaping the record file is a bad date, and it is read to its end exactly when every line is skipped or decoded |
| Loading.LoadRecordsOnlyAppends | RentalProject/src/RentalSystem.java:321-356 | loading records only appends history, each new record pointing at a listed vehicle and a loaded customer |
| Loading.LoadData | RentalProject/src/RentalSystem.java:226-230 | vehicles, customers, records are loaded in order; an uncaught fault in any loader means no repository; a built repository has the files it was read from, `Valid` references and only `Available` vehicles |
| Loading.LoadDataKeeps | RentalProject/src/RentalSystem.java:226-230 | the three loads from the empty repository keep the files and `Valid` |
| Loading.LoadedRentedVehicleAvailable | RentalProject/src/RentalSystem.java:226-230 | any vehicle of a freshly loaded repository can be rented, whatever its loaded history says |

## Left out

- `RentalSystemGUI.java`: widgets and dialogs, which only call the operations above.
- Real file I/O (`FileWriter`, `BufferedReader`, `File.exists`, `IOException`): each file is a sequence of lines, and a missing file reads as an empty one.
- `LocalDate` and `double`: dates and amounts are opaque values. Their text forms (`LocalDate.parse`/`toString`, `Double.parseDouble`, `%.2f`) are parameters of the record codec.
- `displayVehicles`, `displayAllCustomers`, `displayRentalHistory`, `getInfo` and all `System.out` logging: console output only.
- `getInstance`: the lazy singleton is global state; the model passes one repository value explicitly.
- The getters of `Vehicle`: they are the datatype's fields.
- `Car`, `Minibus`, `PickupTruck`, `Customer`, `RentalRecord` and `RentalHistory` are not part of this model. A vehicle kind is a tag with its extra field; a customer and a record are plain values; the history is a sequence.
- `JavaText`: only ASCII letters and digits are cased and parsed. Java also cases and parses other Unicode characters.
- Vehicles.IsValidPlate: `toUpperCase` and `toLowerCase` use the default locale, which is not modelled. The model cases as the root locale does. Under a Turkish locale, `"abi123".toUpperCase()` is `"ABİ123"`, which `Vehicle.java:45` rejects and the model accepts. `Vehicles.Capitalize` is affected the same way. `JavaText.IntToString` always writes ASCII digits, while `printf("%d")` (RentalSystem.java:184 and 201) writes the digits of the default locale. `Integer.parseInt` reads such digits as well, so the round trips are the same; only the text in the file differs.
- JavaText.TextLines: `%n` is taken to be `\n`, the line separator of Unix-like systems. With the Windows separator `\r\n`, a text ending in `\r` would read back with one more, empty, line.
- `saveRecord`: the code never calls it. Its line format is modelled (`Codec.RecordLineRoundTrip`), but no operation appends record lines.
- RentalSystem.AddVehicle: when a listed vehicle has no plate, Java throws `NullPointerException` in the duplicate check (RentalSystem.java:159-166) before reaching a match; the model treats that vehicle as not matching and goes on. `Valid` rules this state out, which is why `Valid` is only promised to be kept when the added vehicle has a plate.
- RentalSystem.FindVehicleByPlate: treats a listed vehicle without a plate as not matching, where Java throws `NullPointerException`. `Valid` rules this state out. It is reachable only by adding a vehicle whose plate was never set.
- RentalSystem.RentVehicle: the customer is a value, so the `NullPointerException` Java throws after the state change when the customer is `null` is not modelled.
- RentalSystem.ReturnVehicle: same as `RentVehicle` for a `null` customer.
- Loading.LoadData: an `IOException` in the middle of a file is not modelled.

=== FILE: codec.dfy ===
/** The one-line-per-record text formats of the three data files: vehicles
    as `plate,Type,make,model,year`, customers as `id,name`, rental records as
    `customerId,plate,recordType,date,amount`. Encoders are what the save
    methods print; decoders are the per-line bodies of the load loops. */
module Codec {
  import opened Wrappers
  import opened JavaText
  import opened Vehicles
  import opened Records

  /** An exception that escapes a load loop: nothing catches it, so building
      the repository fails. */
  datatype Fault =
    | UnknownType   // no vehicle was built for the type tag; the unconditional
                    // second plate assignment dereferences `null`
    | BadPlate      // the stored plate fails validation
    | BadDate       // the date field does not parse

  /** What one line contributes to a load. `Abort` is a `NumberFormatException`:
      it is caught outside the read loop, so the rest of the file is not read. */
  datatype Decoded<+T> = Skip | Abort | Thrown(fault: Fault) | Item(value: T)

  /** `%s` prints a `null` string as `null`. */
  function PlateText(plate: Option<string>): string
  {
    if plate.Some? then plate.value else "null"
  }

  // ---------------------------------------------------------------------------
  // Encoders

  /** A vehicle line. It is one line of the file exactly when neither the
      plate text nor make nor model holds a line terminator. */
  function EncodeVehicle(v: Vehicle): (line: string)
    ensures IsLineText(line) <==>
      IsLineText(PlateText(v.licensePlate)) && IsLineText(v.make) && IsLineText(v.model)
  {
    FieldTextIsLineText(IntToString(v.year as int));
    assert IsLineText(SimpleName(v.variant));
    LineTextOfFive(PlateText(v.licensePlate), SimpleName(v.variant), v.make, v.model, IntToString(v.year as int));
    Join([PlateText(v.licensePlate), SimpleName(v.variant), v.make, v.model, IntToString(v.year as int)])
  }

  /** A customer line. It is one line of the file exactly when the name
      holds no line terminator. */
  function EncodeCustomer(c: Customer): (line: string)
    ensures IsLineText(line) <==> IsLineText(c.customerName)
  {
    FieldTextIsLineText(IntToString(c.customerId as int));
    LineTextOfTwo(IntToString(c.customerId as int), c.customerName);
    Join([IntToString(c.customerId as int), c.customerName])
  }

  /** A record line. `plate` is the referenced vehicle's current plate, and
      `showDate`/`showAmount` stand for `LocalDate.toString` and `%.2f`. It is
      one line of the file exactly when none of the text fields holds a line
      terminator. */
  function EncodeRecord(plate: Option<string>, rec: RentalRecord,
                        showDate: Date -> string, showAmount: Amount -> string): (line: string)
    ensures IsLineText(line) <==>
      && IsLineText(PlateText(plate)) && IsLineText(rec.recordType)
      && IsLineText(showDate(rec.recordDate)) && IsLineText(showAmount(rec.totalAmount))
  {
    FieldTextIsLineText(IntToString(rec.customer.customerId as int));
    LineTextOfFive(IntToString(rec.customer.customerId as int), PlateText(plate), rec.recordType,
                   showDate(rec.recordDate), showAmount(rec.totalAmount));
    Join([IntToString(rec.customer.customerId as int), PlateText(plate), rec.recordType,
          showDate(rec.recordDate), showAmount(rec.totalAmount)])
  }

  /** A two-field line holds a terminator exactly when one of its fields does. */
  lemma LineTextOfTwo(a: string, b: string)
    ensures IsLineText(Join([a, b])) <==> IsLineText(a) && IsLineText(b)
  {
    var fields := [a, b];
    JoinLineText(fields);
    assert fields[0] == a && fields[1] == b;
  }

  /** A five-field line holds a terminator exactly when one of its fields does. */
  lemma LineTextOfFive(a: string, b: string, c: string, d: string, e: string)
    ensures IsLineText(Join([a, b, c, d, e])) <==>
      IsLineText(a) && IsLineText(b) && IsLineText(c) && IsLineText(d) && IsLineText(e)
  {
    var fields := [a, b, c, d, e];
    JoinLineText(fields);
    assert fields[0] == a && fields[1] == b && fields[2] == c && fields[3] == d && fields[4] == e;
  }

  /** Comma-joined fields that are field text, with a first field starting
      with a non-blank character and a non-empty last field, are a non-blank
      line that splits back into those fields. */
  lemma SplitFields(fields: seq<string>)
    requires |fields| >= 1 && fields[0] != [] && !IsWhite(fields[0][0])
    requires fields[|fields| - 1] != []
    requires forall i :: 0 <= i < |fields| ==> IsFieldText(fields[i])
    ensures !IsBlank(Join(fields))
    ensures Split(Join(fields)) == fields
  {
    forall i | 0 <= i < |fields|
      ensures ',' !in fields[i]
    {
      assert IsFieldText(fields[i]);
    }
    SplitJoin(fields);
    var line := Join(fields);
    assert line[0] == fields[0][0] by {
      if |fields| > 1 {
        assert line == fields[0] + [','] + Join(fields[1..]);
      }
    }
  }

  // ---------------------------------------------------------------------------
  // Vehicle lines

  /** The type-tag switch of the vehicle loader, with the fixed defaults it
      uses for the fields the file does not carry. */
  function VariantFromTag(tag: string): (r: Option<Variant>)
    ensures r.None? <==> tag != "Car" && tag != "Minibus" && tag != "PickupTruck"
    ensures r.Some? ==> SimpleName(r.value) == tag
    ensures r.Some? ==> r.value in {Car(5), Minibus(false), PickupTruck(100.0, false)}
  {
    if tag == "Car" then Some(Car(5))
    else if tag == "Minibus" then Some(Minibus(false))
    else if tag == "PickupTruck" then Some(PickupTruck(100.0, false))
    else None
  }

  /** The name a vehicle kind is saved under is a tag the loader knows, and
      it reads back as that kind with the loader's default extras. */
  lemma SimpleNameIsTag(k: Variant)
    ensures VariantFromTag(SimpleName(k)).Some?
    ensures SimpleName(VariantFromTag(SimpleName(k)).value) == SimpleName(k)
  {
    match k
    case Car(_) => assert VariantFromTag("Car") == Some(Car(5));
    case Minibus(_) => assert VariantFromTag("Minibus") == Some(Minibus(false));
    case PickupTruck(_, _) => assert VariantFromTag("PickupTruck") == Some(PickupTruck(100.0, false));
  }

  /** One line of the vehicle file. Blank lines and lines with fewer than five
      fields are skipped; a bad year aborts; an unknown tag or a bad plate
      throws; otherwise a new `Available` vehicle with capitalised make and
      model and the plate set (twice, as the loader does). */
  function DecodeVehicleLine(line: string): (r: Decoded<Vehicle>)
    ensures r.Skip? <==> IsBlank(line) || |Split(line)| < 5
    ensures r.Abort? <==> !IsBlank(line) && |Split(line)| >= 5 && ParseInt(Split(line)[4]).None?
    ensures r.Thrown? ==> r.fault == UnknownType || r.fault == BadPlate
    ensures r.Item? ==>
      && Some(r.value.variant) == VariantFromTag(Split(line)[1])
      && r.value.status == Available
      && r.value.licensePlate.Some? && PlatePattern(r.value.licensePlate.value)
      && IsCapitalized(r.value.make) && IsCapitalized(r.value.model)
  {
    if IsBlank(line) then Skip
    else
      var parts := Split(line);
      if |parts| < 5 then Skip
      else
        match ParseInt(parts[4])
        case None => Abort
        case Some(year) =>
          match VariantFromTag(parts[1])
          case None => Thrown(UnknownType)
          case Some(variant) =>
            match SetLicensePlate(New(variant, Some(parts[2]), Some(parts[3]), year), Some(parts[0]))
            case Failure(_) => Thrown(BadPlate)
            case Success(v) =>
              match SetLicensePlate(v, Some(parts[0]))
              case Failure(_) => Thrown(BadPlate)
              case Success(v2) => Item(v2)
  }

  /** For a line with five fields and a readable year, the outcome is
      decided by the type tag, then by the plate; a decoded vehicle carries
      the tag's kind, the normalised plate, the capitalised make and model
      and the year. */
  lemma VehicleLineFields(line: string)
    requires !IsBlank(line) && |Split(line)| >= 5 && ParseInt(Split(line)[4]).Some?
    ensures var parts := Split(line);
      var r := DecodeVehicleLine(line);
      && (r == Thrown(UnknownType) <==> VariantFromTag(parts[1]).None?)
      && (r == Thrown(BadPlate) <==> VariantFromTag(parts[1]).Some? && !IsValidPlate(Some(parts[0])))
      && (r.Item? ==>
            && Some(r.value.variant) == VariantFromTag(parts[1])
            && r.value.licensePlate == Some(ToUpper(Trim(parts[0])))
            && r.value.make == Capitalize(Some(parts[2])) && r.value.model == Capitalize(Some(parts[3]))
            && Some(r.value.year) == ParseInt(parts[4]))
  {
    var parts := Split(line);
    var r := DecodeVehicleLine(line);
    match VariantFromTag(parts[1])
    case None =>
      assert r == Thrown(UnknownType);
    case Some(variant) =>
      var first := SetLicensePlate(New(variant, Some(parts[2]), Some(parts[3]), ParseInt(parts[4]).value), Some(parts[0]));
      if first.Success? {
        assert r == Item(first.value);
      } else {
        assert r == Thrown(BadPlate);
      }
  }

  /** A vehicle the save format can carry: a valid stored plate, and make and
      model as the constructor leaves them, free of separators. */
  predicate Storable(v: Vehicle)
  {
    && v.licensePlate.Some? && PlatePattern(v.licensePlate.value)
    && IsCapitalized(v.make) && IsCapitalized(v.model)
    && IsFieldText(v.make) && IsFieldText(v.model)
  }

  /** A vehicle whose plate was never set is printed with the plate text
      `null`, which is not a plate: reading the line back throws. */
  lemma PlatelessLineThrows(v: Vehicle)
    requires v.licensePlate.None? && IsFieldText(v.make) && IsFieldText(v.model)
    ensures DecodeVehicleLine(EncodeVehicle(v)) == Thrown(BadPlate)
  {
    var line := EncodeVehicle(v);
    assert && !IsBlank(line) && |Split(line)| >= 5 && Split(line)[0] == "null"
           && ParseInt(Split(line)[4]).Some? && VariantFromTag(Split(line)[1]).Some? by {
      PlatelessSplit(v);
      ParseIntToString(v.year);
      assert Split(line)[1] == SimpleName(v.variant);
      SimpleNameIsTag(v.variant);
    }
    NullPlateLineThrows(line);
  }

  /** A line with a known tag and a readable year whose plate field is
      `null` throws. */
  lemma NullPlateLineThrows(line: string)
    requires !IsBlank(line) && |Split(line)| >= 5 && Split(line)[0] == "null"
    requires VariantFromTag(Split(line)[1]).Some? && ParseInt(Split(line)[4]).Some?
    ensures DecodeVehicleLine(line) == Thrown(BadPlate)
  {
    NullIsNoPlate();
    VehicleLineFields(line);
  }

  lemma PlatelessSplit(v: Vehicle)
    requires v.licensePlate.None? && IsFieldText(v.make) && IsFieldText(v.model)
    ensures !IsBlank(EncodeVehicle(v))
    ensures Split(EncodeVehicle(v)) == ["null", SimpleName(v.variant), v.make, v.model, IntToString(v.year as int)]
  {
    assert IsFieldText("null");
    SplitFields(["null", SimpleName(v.variant), v.make, v.model, IntToString(v.year as int)]);
  }

  /** The text `null` is not a plate. */
  lemma NullIsNoPlate()
    ensures !IsValidPlate(Some("null"))
  {
    assert Trim("null") == "null";
  }

  /** A storable vehicle is printed as one line of the file. */
  lemma StorableLineText(v: Vehicle)
    requires Storable(v)
    ensures IsLineText(EncodeVehicle(v))
  {
    FieldTextIsLineText(v.make);
    FieldTextIsLineText(v.model);
    var p := v.licensePlate.value;
    assert IsLineText(p) by {
      forall i | 0 <= i < |p| ensures !IsLineBreak(p[i]) {
        assert IsAsciiUpper(p[i]) || IsDigit(p[i]);
      }
    }
  }

  /** Saving then loading a vehicle gives back its plate, make, model, year
      and type; the type's extra fields come back as the defaults and the
      status as `Available`. */
  lemma VehicleLineRoundTrip(v: Vehicle)
    requires Storable(v)
    ensures var r := DecodeVehicleLine(EncodeVehicle(v));
      && r.Item?
      && r.value.licensePlate == v.licensePlate
      && r.value.make == v.make && r.value.model == v.model && r.value.year == v.year
      && Some(r.value.variant) == VariantFromTag(SimpleName(v.variant))
      && r.value.status == Available
  {
    var fields := [PlateText(v.licensePlate), SimpleName(v.variant), v.make, v.model, IntToString(v.year as int)];
    SplitFields(fields);
    ParseIntToString(v.year);
    SimpleNameIsTag(v.variant);
    CapitalizeFixpoint(v.make);
    CapitalizeFixpoint(v.model);
    var built := New(VariantFromTag(SimpleName(v.variant)).value, Some(v.make), Some(v.model), v.year);
    SetStoredPlate(built.(licensePlate := v.licensePlate));
    assert SetLicensePlate(built, v.licensePlate) == Success(built.(licensePlate := v.licensePlate));
  }

  // ---------------------------------------------------------------------------
  // Customer lines

  /** One line of the customer file: blank and one-field lines are skipped, a
      bad id aborts, otherwise a customer with the id and the second field. */
  function DecodeCustomerLine(line: string): (r: Decoded<Customer>)
    ensures r.Skip? <==> IsBlank(line) || |Split(line)| < 2
    ensures r.Abort? <==> !IsBlank(line) && |Split(line)| >= 2 && ParseInt(Split(line)[0]).None?
    ensures !r.Thrown?
    ensures r.Item? ==>
      && ParseInt(Split(line)[0]) == Some(r.value.customerId)
      && r.value.customerName == Split(line)[1]
  {
    if IsBlank(line) then Skip
    else
      var parts := Split(line);
      if |parts| < 2 then Skip
      else
        match ParseInt(parts[0])
        case None => Abort
        case Some(id) => Item(Customer(id, parts[1]))
  }

  /** Saving then loading a customer with a non-empty, separator-free name
      gives the same customer back. */
  lemma CustomerLineRoundTrip(c: Customer)
    requires c.customerName != [] && IsFieldText(c.customerName)
    ensures DecodeCustomerLine(EncodeCustomer(c)) == Item(c)
  {
    SplitFields([IntToString(c.customerId as int), c.customerName]);
    ParseIntToString(c.customerId);
  }

  /** A customer with an empty name is written as `id,`, which splits into a
      single field, so the line is skipped on load: the customer is lost. */
  lemma EmptyNameCustomerLost(c: Customer)
    requires c.customerName == []
    ensures DecodeCustomerLine(EncodeCustomer(c)) == Skip
  {
    var id := IntToString(c.customerId as int);
    var line := EncodeCustomer(c);
    var fields := [id, c.customerName];
    assert fields[1..] == [[]];
    assert Join(fields[1..]) == [];
    assert line == Join(fields) == id + [','] + [];
    SplitAllNoComma(id);
    SplitAllCons(id, []);
    assert SplitAll(line) == [id, []];
    assert DropTrailingEmpty([id, []]) == [id];
    assert Split(line) == [id];
  }

  // ---------------------------------------------------------------------------
  // Rental record lines

  /** The fields of a record line before the plate and id are resolved. */
  datatype RecordFields = RecordFields(
    customerId: int32, plate: string, recordType: string, date: Date, amount: Amount)

  /** One line of the rental-record file. `parseDate` and `parseAmount` stand
      for `LocalDate.parse` and `Double.parseDouble`; a date that does not
      parse throws, an id or amount that does not parse aborts. The record
      type is not checked. */
  function DecodeRecordLine(line: string, parseDate: string -> Option<Date>,
                            parseAmount: string -> Option<Amount>): (r: Decoded<RecordFields>)
    ensures r.Skip? <==> IsBlank(line) || |Split(line)| < 5
    ensures r.Abort? <==>
      && !r.Skip?
      && (ParseInt(Split(line)[0]).None? || (parseDate(Split(line)[3]).Some? && parseAmount(Split(line)[4]).None?))
    ensures r.Thrown? <==> !r.Skip? && ParseInt(Split(line)[0]).Some? && parseDate(Split(line)[3]).None?
    ensures r.Thrown? ==> r.fault == BadDate
    ensures r.Item? ==>
      var parts := Split(line);
      && ParseInt(parts[0]) == Some(r.value.customerId)
      && r.value.plate == parts[1] && r.value.recordType == parts[2]
      && parseDate(parts[3]) == Some(r.value.date) && parseAmount(parts[4]) == Some(r.value.amount)
  {
    if IsBlank(line) then Skip
    else
      var parts := Split(line);
      if |parts| < 5 then Skip
      else
        match ParseInt(parts[0])
        case None => Abort
        case Some(id) =>
          match parseDate(parts[3])
          case None => Thrown(BadDate)
          case Some(date) =>
            match parseAmount(parts[4])
            case None => Abort
            case Some(amount) => Item(RecordFields(id, parts[1], parts[2], date, amount))
  }

  /** A record line read back gives the fields it was written from, provided
      the date and amount texts read back as what they show and no field
      carries a separator. */
  lemma RecordLineRoundTrip(plate: Option<string>, rec: RentalRecord,
                            showDate: Date -> string, showAmount: Amount -> string,
                            parseDate: string -> Option<Date>, parseAmount: string -> Option<Amount>)
    requires IsFieldText(PlateText(plate)) && IsFieldText(rec.recordType)
    requires IsFieldText(showDate(rec.recordDate)) && parseDate(showDate(rec.recordDate)) == Some(rec.recordDate)
    requires showAmount(rec.totalAmount) != [] && IsFieldText(showAmount(rec.totalAmount))
    requires parseAmount(showAmount(rec.totalAmount)) == Some(rec.totalAmount)
    ensures DecodeRecordLine(EncodeRecord(plate, rec, showDate, showAmount), parseDate, parseAmount)
         == Item(RecordFields(rec.customer.customerId, PlateText(plate), rec.recordType,
                              rec.recordDate, rec.totalAmount))
  {
    SplitFields([IntToString(rec.customer.customerId as int), PlateText(plate), rec.recordType,
                 showDate(rec.recordDate), showAmount(rec.totalAmount)]);
    ParseIntToString(rec.customer.customerId);
  }
}

=== FILE: java_text.dfy ===
/** The parts of `java.lang.String` and `java.lang.Integer` that the rental
    core relies on, restricted to ASCII case mapping. */
module JavaText {
  import opened Wrappers

  /** Java's 32-bit `int`. */
  newtype int32 = x: int | -0x8000_0000 <= x < 0x8000_0000

  // ---------------------------------------------------------------------------
  // Characters

  /** `String.trim` strips every character whose code is at most U+0020. */
  predicate IsWhite(c: char) { c <= ' ' }

  predicate IsAsciiUpper(c: char) { 'A' <= c <= 'Z' }
  predicate IsAsciiLower(c: char) { 'a' <= c <= 'z' }
  predicate IsAsciiLetter(c: char) { IsAsciiUpper(c) || IsAsciiLower(c) }
  predicate IsDigit(c: char) { '0' <= c <= '9' }

  /** Field text of a line-oriented file: no comma (the field separator) and no
      line terminator (which `BufferedReader.readLine` would split on). */
  predicate IsFieldText(s: string) {
    forall i :: 0 <= i < |s| ==> s[i] != ',' && s[i] != '\n' && s[i] != '\r'
  }

  function UpperChar(c: char): char {
    if IsAsciiLower(c) then (c as int - 32) as char else c
  }

  function LowerChar(c: char): char {
    if IsAsciiUpper(c) then (c as int + 32) as char else c
  }

  function ToUpper(s: string): (r: string)
    ensures |r| == |s| && forall i :: 0 <= i < |s| ==> r[i] == UpperChar(s[i])
  {
    seq(|s|, i requires 0 <= i < |s| => UpperChar(s[i]))
  }

  function ToLower(s: string): (r: string)
    ensures |r| == |s| && forall i :: 0 <= i < |s| ==> r[i] == LowerChar(s[i])
  {
    seq(|s|, i requires 0 <= i < |s| => LowerChar(s[i]))
  }

  /** The comparison `String.equalsIgnoreCase` makes at one position: the
      characters are equal, or equal once upper-cased, or equal once
      upper-cased and then lower-cased. */
  predicate SameIgnoringCase(c: char, d: char) {
    c == d || UpperChar(c) == UpperChar(d) || LowerChar(UpperChar(c)) == LowerChar(UpperChar(d))
  }

  /** `String.equalsIgnoreCase`, on ASCII: the same length, and the same
      characters ignoring case at every position. */
  predicate EqualsIgnoreCase(a: string, b: string): (eq: bool)
    ensures eq <==> |a| == |b| && forall i :: 0 <= i < |a| ==> SameIgnoringCase(a[i], b[i])
  {
    SameIgnoringCaseUpper(a, b);
    ToUpper(a) == ToUpper(b)
  }

  /** On ASCII, two characters are the same ignoring case exactly when
      their upper-case forms are equal. */
  lemma SameIgnoringCaseChar(c: char, d: char)
    ensures SameIgnoringCase(c, d) <==> UpperChar(c) == UpperChar(d)
  {
    CaseChar(UpperChar(c));
    CaseChar(UpperChar(d));
  }

  lemma SameIgnoringCaseUpper(a: string, b: string)
    ensures ToUpper(a) == ToUpper(b) <==> |a| == |b| && forall i :: 0 <= i < |a| ==> SameIgnoringCase(a[i], b[i])
  {
    if |a| == |b| {
      forall i | 0 <= i < |a|
        ensures SameIgnoringCase(a[i], b[i]) <==> ToUpper(a)[i] == ToUpper(b)[i]
      {
        SameIgnoringCaseChar(a[i], b[i]);
      }
    }
  }

  /** ASCII case mapping of whole strings: the last mapping applied decides
      the result, and upper-cased text holds no lower-case letter. */
  lemma CaseMapping(s: string)
    ensures ToUpper(ToLower(s)) == ToUpper(s) && ToUpper(ToUpper(s)) == ToUpper(s)
    ensures ToLower(ToUpper(s)) == ToLower(s) && ToLower(ToLower(s)) == ToLower(s)
    ensures forall i :: 0 <= i < |s| ==> !IsAsciiLower(ToUpper(s)[i]) && !IsAsciiUpper(ToLower(s)[i])
  {
    forall i | 0 <= i < |s|
      ensures ToUpper(ToLower(s))[i] == ToUpper(s)[i] && ToUpper(ToUpper(s))[i] == ToUpper(s)[i]
      ensures ToLower(ToUpper(s))[i] == ToLower(s)[i] && ToLower(ToLower(s))[i] == ToLower(s)[i]
    {
      CaseChar(s[i]);
      CaseChar(UpperChar(s[i]));
      CaseChar(LowerChar(s[i]));
    }
  }

  /** ASCII case mapping of one character: lower-casing then upper-casing is
      upper-casing, and neither mapping touches white characters. */
  lemma CaseChar(c: char)
    ensures UpperChar(LowerChar(c)) == UpperChar(c)
    ensures !IsAsciiUpper(LowerChar(c)) && !IsAsciiLower(UpperChar(c))
    ensures IsWhite(LowerChar(c)) <==> IsWhite(c)
    ensures IsWhite(UpperChar(c)) <==> IsWhite(c)
    ensures !IsAsciiLower(c) ==> UpperChar(LowerChar(c)) == c
    ensures !IsAsciiUpper(c) ==> LowerChar(c) == c
  {
  }

  // ---------------------------------------------------------------------------
  // String.trim

  function TrimStart(s: string): (r: string)
    ensures |r| <= |s| && r == s[|s| - |r|..]
    ensures forall i :: 0 <= i < |s| - |r| ==> IsWhite(s[i])
    ensures r == [] || !IsWhite(r[0])
  {
    if s != [] && IsWhite(s[0]) then TrimStart(s[1..]) else s
  }

  function TrimEnd(s: string): (r: string)
    ensures |r| <= |s| && r == s[..|r|]
    ensures forall i :: |r| <= i < |s| ==> IsWhite(s[i])
    ensures r == [] || !IsWhite(r[|r| - 1])
  {
    if s != [] && IsWhite(s[|s| - 1]) then TrimEnd(s[..|s| - 1]) else s
  }

  predicate AllWhite(s: string) { forall i :: 0 <= i < |s| ==> IsWhite(s[i]) }

  /** `s` is `core` with the white runs `lead` before it and `trail` after it. */
  predicate PaddedBy(s: string, lead: string, core: string, trail: string)
  {
    s == lead + core + trail && AllWhite(lead) && AllWhite(trail)
  }

  /** `String.trim`: the result is empty exactly when every character is
      white, and otherwise neither starts nor ends with a white character. */
  function Trim(s: string): (r: string)
    ensures r == [] <==> forall i :: 0 <= i < |s| ==> IsWhite(s[i])
    ensures r != [] ==> !IsWhite(r[0]) && !IsWhite(r[|r| - 1])
  {
    TrimEnd(TrimStart(s))
  }

  /** The input is its trim with a run of white characters before and after
      it; with the ends `Trim` keeps, those runs are the longest ones. */
  lemma TrimPadded(s: string)
    ensures exists lead, trail :: PaddedBy(s, lead, Trim(s), trail)
  {
    var t := TrimStart(s);
    var lead, trail := s[..|s| - |t|], t[|Trim(s)|..];
    PaddedBetween(s, t, Trim(s));
    assert PaddedBy(s, lead, Trim(s), trail);
  }

  /** A white run cut from the front and then one from the back leave the
      input padded around what remains. */
  lemma PaddedBetween(s: string, t: string, r: string)
    requires |t| <= |s| && t == s[|s| - |t|..] && forall i :: 0 <= i < |s| - |t| ==> IsWhite(s[i])
    requires |r| <= |t| && r == t[..|r|] && forall i :: |r| <= i < |t| ==> IsWhite(t[i])
    ensures PaddedBy(s, s[..|s| - |t|], r, t[|r|..])
  {
    var lead, trail := s[..|s| - |t|], t[|r|..];
    assert s == lead + t;
    assert t == r + trail;
    assert s == lead + r + trail;
    assert AllWhite(lead) by {
      forall i | 0 <= i < |lead| ensures IsWhite(lead[i]) { assert lead[i] == s[i]; }
    }
    assert AllWhite(trail) by {
      forall i | 0 <= i < |trail| ensures IsWhite(trail[i]) { assert trail[i] == t[|r| + i]; }
    }
  }

  /** A string that neither starts nor ends with a white character is its own trim. */
  lemma TrimUnpadded(s: string)
    requires s == [] || (!IsWhite(s[0]) && !IsWhite(s[|s| - 1]))
    ensures Trim(s) == s
  {
  }

  /** Lower-casing does not move the trim boundaries. */
  lemma {:induction false} TrimToLower(s: string)
    ensures Trim(ToLower(s)) == ToLower(Trim(s))
  {
    TrimStartToLower(s);
    TrimEndToLower(TrimStart(s));
  }

  lemma {:induction false} TrimStartToLower(s: string)
    ensures TrimStart(ToLower(s)) == ToLower(TrimStart(s))
  {
    if s != [] {
      CaseChar(s[0]);
      assert ToLower(s)[1..] == ToLower(s[1..]);
      TrimStartToLower(s[1..]);
    }
  }

  lemma {:induction false} TrimEndToLower(s: string)
    ensures TrimEnd(ToLower(s)) == ToLower(TrimEnd(s))
  {
    if s != [] {
      CaseChar(s[|s| - 1]);
      assert ToLower(s)[..|s| - 1] == ToLower(s[..|s| - 1]);
      TrimEndToLower(s[..|s| - 1]);
    }
  }

  /** `line.trim().isEmpty()`: every character is white. */
  predicate IsBlank(s: string): (b: bool)
    ensures b <==> forall i :: 0 <= i < |s| ==> IsWhite(s[i])
  {
    Trim(s) == []
  }

  // ---------------------------------------------------------------------------
  // String.split(",")

  /** Every comma-separated piece of `s`, empty ones included. */
  function SplitAll(s: string): (r: seq<string>)
    ensures |r| >= 1
    ensures forall i :: 0 <= i < |r| ==> ',' !in r[i]
  {
    if s == [] then [[]]
    else
      var rest := SplitAll(s[1..]);
      if s[0] == ',' then [[]] + rest
      else [[s[0]] + rest[0]] + rest[1..]
  }

  /** The inverse direction of splitting: the pieces with a comma between each two. */
  function Join(fields: seq<string>): string
  {
    if |fields| == 0 then []
    else if |fields| == 1 then fields[0]
    else fields[0] + [','] + Join(fields[1..])
  }

  /** Java's `split` with limit zero drops trailing empty strings. */
  function DropTrailingEmpty(fields: seq<string>): (r: seq<string>)
    ensures |r| <= |fields| && r == fields[..|r|]
    ensures forall i :: |r| <= i < |fields| ==> fields[i] == []
    ensures r == [] || r[|r| - 1] != []
  {
    if fields != [] && fields[|fields| - 1] == [] then DropTrailingEmpty(fields[..|fields| - 1])
    else fields
  }

  /** `k` separators in a row. */
  function Commas(k: nat): (r: string)
    ensures |r| == k && forall i :: 0 <= i < k ==> r[i] == ','
  {
    seq(k, _ => ',')
  }

  /** `s.split(",")`. Java returns the input itself when no separator matches,
      which for the empty string is `[""]`; otherwise the comma-free pieces
      that rebuild the line up to trailing separators, the last one not
      empty. */
  function Split(s: string): (r: seq<string>)
    ensures forall i :: 0 <= i < |r| ==> ',' !in r[i]
    ensures s == [] ==> r == [[]]
    ensures s != [] ==> r == [] || r[|r| - 1] != []
    ensures exists k: nat :: Join(r) + Commas(k) == s
  {
    if s == [] then assert Join([[]]) + Commas(0) == s; [[]]
    else
      var r := DropTrailingEmpty(SplitAll(s));
      JoinSplitAll(s);
      DropTrailingRebuilds(SplitAll(s));
      r
  }

  /** Appending a piece to at least one piece adds one separator. */
  lemma {:induction false} JoinSnoc(fields: seq<string>, x: string)
    requires |fields| >= 1
    ensures Join(fields + [x]) == Join(fields) + [','] + x
    decreases |fields|
  {
    if |fields| > 1 {
      assert (fields + [x])[1..] == fields[1..] + [x];
      JoinSnoc(fields[1..], x);
    }
  }

  lemma DropTrailingRebuilds(fields: seq<string>)
    requires |fields| >= 1
    ensures exists k: nat :: Join(fields) == Join(DropTrailingEmpty(fields)) + Commas(k)
  {
    var k := JoinDropTrailing(fields);
  }

  /** Dropping trailing empty pieces removes only trailing separators. */
  lemma {:induction false} JoinDropTrailing(fields: seq<string>) returns (k: nat)
    requires |fields| >= 1
    ensures Join(fields) == Join(DropTrailingEmpty(fields)) + Commas(k)
    decreases |fields|
  {
    var n := |fields|;
    if fields[n - 1] != [] {
      k := 0;
      assert Join(fields) + Commas(0) == Join(fields);
    } else if n == 1 {
      k := 0;
      assert fields == [[]];
    } else {
      var init := fields[..n - 1];
      var m := JoinDropTrailing(init);
      k := m + 1;
      assert DropTrailingEmpty(fields) == DropTrailingEmpty(init);
      assert Join(fields) == Join(init) + [','] by {
        assert fields == init + [[]];
        JoinSnoc(init, []);
      }
      assert Commas(m) + [','] == Commas(k);
    }
  }

  /** Joining the pieces of a split gives back the string. */
  lemma {:induction false} JoinSplitAll(s: string)
    ensures Join(SplitAll(s)) == s
  {
    if s != [] {
      var rest := SplitAll(s[1..]);
      JoinSplitAll(s[1..]);
      if s[0] != ',' && |rest| > 1 {
        assert ([[s[0]] + rest[0]] + rest[1..])[1..] == rest[1..];
      }
    }
  }

  /** Splitting text with no comma gives the text itself as the single piece. */
  lemma {:induction false} SplitAllNoComma(a: string)
    requires ',' !in a
    ensures SplitAll(a) == [a]
  {
    if a != [] {
      SplitAllNoComma(a[1..]);
      assert [a[0]] + a[1..] == a;
    }
  }

  /** A comma-free first piece is split off exactly. */
  lemma {:induction false} SplitAllCons(a: string, b: string)
    requires ',' !in a
    ensures SplitAll(a + [','] + b) == [a] + SplitAll(b)
  {
    if a == [] {
      assert a + [','] + b == [','] + b;
      assert ([','] + b)[1..] == b;
    } else {
      assert (a + [','] + b)[1..] == a[1..] + [','] + b;
      SplitAllCons(a[1..], b);
      assert [a[0]] + a[1..] == a;
    }
  }

  /** Splitting joined comma-free pieces gives the pieces back. */
  lemma {:induction false} SplitAllJoin(fields: seq<string>)
    requires |fields| >= 1
    requires forall i :: 0 <= i < |fields| ==> ',' !in fields[i]
    ensures SplitAll(Join(fields)) == fields
  {
    if |fields| == 1 {
      SplitAllNoComma(fields[0]);
    } else {
      SplitAllJoin(fields[1..]);
      SplitAllCons(fields[0], Join(fields[1..]));
      assert [fields[0]] + fields[1..] == fields;
    }
  }

  /** The codec property of `split`: comma-free fields whose last one is not
      empty come back unchanged from splitting their comma-joined text. */
  lemma SplitJoin(fields: seq<string>)
    requires |fields| >= 1 && fields[|fields| - 1] != []
    requires forall i :: 0 <= i < |fields| ==> ',' !in fields[i]
    ensures Split(Join(fields)) == fields
  {
    SplitAllJoin(fields);
  }

  // ---------------------------------------------------------------------------
  // Line-oriented files: `printf` with `%n` and `BufferedReader.readLine`

  predicate IsLineBreak(c: char) { c == '\n' || c == '\r' }

  /** Text that `readLine` returns whole: it holds no line terminator. */
  predicate IsLineText(s: string) { forall i :: 0 <= i < |s| ==> !IsLineBreak(s[i]) }

  /** Where the first line of `s` ends: the first terminator, or the end. */
  function LineEnd(s: string): (i: nat)
    ensures i <= |s| && IsLineText(s[..i])
    ensures i < |s| ==> IsLineBreak(s[i])
  {
    if s == [] || IsLineBreak(s[0]) then 0
    else
      var j := LineEnd(s[1..]);
      assert s[..j + 1] == [s[0]] + s[1..][..j];
      j + 1
  }

  /** The lines `readLine` returns for `s` written with `%n` (a `\n`) after
      it: `\n`, `\r` and `\r\n` each end a line, and a `\r` at the very end
      pairs with the written `\n`. */
  function TextLines(s: string): (r: seq<string>)
    ensures |r| >= 1
    ensures forall k :: 0 <= k < |r| ==> IsLineText(r[k])
    decreases |s|
  {
    var i := LineEnd(s);
    if i == |s| then [s]
    else if s[i] == '\r' && i + 1 == |s| then [s[..i]]
    else if s[i] == '\r' && s[i + 1] == '\n' then [s[..i]] + TextLines(s[i + 2..])
    else [s[..i]] + TextLines(s[i + 1..])
  }

  /** The lines joined with `\n` between each two. */
  function JoinLines(lines: seq<string>): string
  {
    if |lines| == 0 then []
    else if |lines| == 1 then lines[0]
    else lines[0] + ['\n'] + JoinLines(lines[1..])
  }

  /** Text without a terminator is written as exactly one line. */
  lemma TextLinesOfLineText(s: string)
    requires IsLineText(s)
    ensures TextLines(s) == [s]
  {
  }

  /** Without `\r`, the lines read back are the written text cut at each `\n`. */
  lemma {:induction false} JoinTextLines(s: string)
    requires '\r' !in s
    ensures JoinLines(TextLines(s)) == s
    decreases |s|
  {
    var i := LineEnd(s);
    if i < |s| {
      assert s[i] == '\n' by { assert s[i] in s; }
      var line, rest := s[..i], s[i + 1..];
      assert '\r' !in rest by {
        forall j | 0 <= j < |rest| ensures rest[j] != '\r' { assert rest[j] == s[i + 1 + j]; }
      }
      JoinTextLines(rest);
      var tail := TextLines(rest);
      assert TextLines(s) == [line] + tail;
      assert ([line] + tail)[1..] == tail;
      assert JoinLines([line] + tail) == line + ['\n'] + rest;
      assert s == line + ['\n'] + rest;
    }
  }

  /** The printed text with every line terminator written as `\n`: a `\r\n`
      pair and a lone `\r` each become `\n`, and a `\r` at the very end is
      dropped, since it pairs with the `\n` that `%n` writes after it. */
  function Unify(s: string): (u: string)
    ensures '\r' !in u
    decreases |s|
  {
    if s == [] then []
    else if s[0] == '\r' then
      if |s| == 1 then []
      else if s[1] == '\n' then "\n" + Unify(s[2..])
      else "\n" + Unify(s[1..])
    else [s[0]] + Unify(s[1..])
  }

  /** Text without a terminator is kept by `Unify` in front of any rest. */
  lemma {:induction false} UnifyLineText(p: string, rest: string)
    requires IsLineText(p)
    ensures Unify(p + rest) == p + Unify(rest)
    decreases |p|
  {
    if p != [] {
      assert (p + rest)[0] == p[0] && (p + rest)[1..] == p[1..] + rest;
      assert IsLineText(p[1..]) by {
        forall j | 0 <= j < |p[1..]| ensures !IsLineBreak(p[1..][j]) { assert p[1..][j] == p[j + 1]; }
      }
      UnifyLineText(p[1..], rest);
      assert p[0] != '\r';
      assert Unify(p + rest) == [p[0]] + (p[1..] + Unify(rest));
      assert p == [p[0]] + p[1..];
    } else {
      assert p + rest == rest;
    }
  }

  /** A line put in front of at least one more is followed by a `\n`. */
  lemma JoinLinesCons(line: string, tail: seq<string>)
    requires |tail| >= 1
    ensures JoinLines([line] + tail) == line + "\n" + JoinLines(tail)
  {
    assert ([line] + tail)[1..] == tail;
  }

  /** A terminator in front of `rest` is unified to one `\n`, a `\r\n` pair
      counting as one terminator. */
  lemma UnifyBreak(line: string, t: string, width: nat)
    requires IsLineText(line) && 1 <= width <= |t| && IsLineBreak(t[0])
    requires width == 2 <==> t[0] == '\r' && |t| >= 2 && t[1] == '\n'
    requires width <= 2 && (t[0] == '\r' ==> |t| >= 2)
    ensures Unify(line + t) == line + "\n" + Unify(t[width..])
  {
    UnifyLineText(line, t);
    assert Unify(t) == "\n" + Unify(t[width..]);
  }

  /** The first line of text ends where its terminator-free prefix ends. */
  lemma {:induction false} LineEndAfter(p: string, rest: string)
    requires IsLineText(p) && (rest == [] || IsLineBreak(rest[0]))
    ensures LineEnd(p + rest) == |p|
    decreases |p|
  {
    if p != [] {
      assert (p + rest)[0] == p[0] && (p + rest)[1..] == p[1..] + rest;
      assert IsLineText(p[1..]) by {
        forall j | 0 <= j < |p[1..]| ensures !IsLineBreak(p[1..][j]) { assert p[1..][j] == p[j + 1]; }
      }
      LineEndAfter(p[1..], rest);
    } else {
      assert p + rest == rest;
    }
  }

  /** Joining lines that hold no terminator loses nothing: two such
      sequences that join to the same text are equal. */
  lemma {:induction false} JoinLinesInjective(a: seq<string>, b: seq<string>)
    requires |a| >= 1 && |b| >= 1
    requires forall k :: 0 <= k < |a| ==> IsLineText(a[k])
    requires forall k :: 0 <= k < |b| ==> IsLineText(b[k])
    requires JoinLines(a) == JoinLines(b)
    ensures a == b
    decreases |a|
  {
    var text := JoinLines(a);
    var ra: string := if |a| == 1 then [] else "\n" + JoinLines(a[1..]);
    var rb: string := if |b| == 1 then [] else "\n" + JoinLines(b[1..]);
    assert text == a[0] + ra;
    assert text == b[0] + rb;
    LineEndAfter(a[0], ra);
    LineEndAfter(b[0], rb);
    assert a[0] == text[..|a[0]|] == b[0];
    if |a| == 1 {
      if |b| > 1 {
        assert false;
      }
    } else {
      if |b| == 1 {
        assert false;
      }
      assert JoinLines(a[1..]) == text[|a[0]| + 1..] == JoinLines(b[1..]);
      assert IsLineText(a[1..][0]) && IsLineText(b[1..][0]);
      JoinLinesInjective(a[1..], b[1..]);
      assert a == [a[0]] + a[1..];
      assert b == [b[0]] + b[1..];
    }
  }

  /** `TextLines` is the one way to cut the unified text into lines that
      hold no terminator. */
  lemma TextLinesUnique(s: string, lines: seq<string>)
    requires |lines| >= 1 && forall k :: 0 <= k < |lines| ==> IsLineText(lines[k])
    ensures JoinLines(lines) == Unify(s) <==> lines == TextLines(s)
  {
    TextLinesUnify(s);
    if JoinLines(lines) == Unify(s) {
      JoinLinesInjective(lines, TextLines(s));
    }
  }

  /** The lines read back, joined with `\n`, are the printed text with its
      terminators unified: together with the lines holding no terminator,
      this fixes `TextLines` for every text. */
  lemma {:induction false} TextLinesUnify(s: string)
    ensures JoinLines(TextLines(s)) == Unify(s)
    decreases |s|
  {
    var i := LineEnd(s);
    var line, t := s[..i], s[i..];
    assert s == line + t;
    if i == |s| {
      assert t == [];
      UnifyLineText(line, t);
    } else if s[i] == '\r' && i + 1 == |s| {
      assert t == "\r";
      UnifyLineText(line, t);
    } else {
      var width: nat := if s[i] == '\r' && s[i + 1] == '\n' then 2 else 1;
      var rest := s[i + width..];
      assert TextLines(s) == [line] + TextLines(rest);
      TextLinesUnify(rest);
      JoinLinesCons(line, TextLines(rest));
      assert t[width..] == rest;
      UnifyBreak(line, t, width);
    }
  }

  /** A comma-joined line holds a terminator exactly when one of its fields does. */
  lemma {:induction false} JoinLineText(fields: seq<string>)
    ensures IsLineText(Join(fields)) <==> forall i :: 0 <= i < |fields| ==> IsLineText(fields[i])
    decreases |fields|
  {
    if |fields| > 1 {
      JoinLineText(fields[1..]);
      var line := Join(fields);
      assert line == fields[0] + [','] + Join(fields[1..]);
      if IsLineText(line) {
        assert IsLineText(fields[0]) by {
          forall i | 0 <= i < |fields[0]| ensures !IsLineBreak(fields[0][i]) { assert fields[0][i] == line[i]; }
        }
        assert IsLineText(Join(fields[1..])) by {
          forall i | 0 <= i < |Join(fields[1..])| ensures !IsLineBreak(Join(fields[1..])[i]) {
            assert Join(fields[1..])[i] == line[|fields[0]| + 1 + i];
          }
        }
        forall i | 0 <= i < |fields| ensures IsLineText(fields[i]) {
          if i > 0 { assert fields[i] == fields[1..][i - 1]; }
        }
      }
      if forall i :: 0 <= i < |fields| ==> IsLineText(fields[i]) {
        forall i | 0 <= i < |fields[1..]| ensures IsLineText(fields[1..][i]) {
          assert fields[1..][i] == fields[i + 1];
        }
        assert IsLineText(fields[0]);
        forall i | 0 <= i < |line| ensures !IsLineBreak(line[i]) {
          if i < |fields[0]| {
            assert line[i] == fields[0][i];
          } else if i > |fields[0]| {
            assert line[i] == Join(fields[1..])[i - |fields[0]| - 1];
          }
        }
      }
    }
  }

  /** Field text is line text. */
  lemma FieldTextIsLineText(s: string)
    requires IsFieldText(s)
    ensures IsLineText(s)
  {
  }

  // ---------------------------------------------------------------------------
  // Decimal integers: printf("%d") and Integer.parseInt

  predicate AllDigits(s: string) { forall i :: 0 <= i < |s| ==> IsDigit(s[i]) }

  function DigitChar(d: nat): char
    requires d < 10
  {
    ('0' as int + d) as char
  }

  function DigitValue(c: char): nat
    requires IsDigit(c)
  {
    c as int - '0' as int
  }

  /** The value of a string of decimal digits, most significant first. */
  function DigitsValue(s: string): nat
    requires AllDigits(s)
  {
    if s == [] then 0 else DigitsValue(s[..|s| - 1]) * 10 + DigitValue(s[|s| - 1])
  }

  /** Decimal digits of `n` without leading zeros. */
  function NatToString(n: nat): (s: string)
    ensures |s| >= 1 && AllDigits(s)
    ensures s[0] != '0' || n == 0
  {
    if n < 10 then [DigitChar(n)] else NatToString(n / 10) + [DigitChar(n % 10)]
  }

  /** `%d`: a minus sign exactly for negative values, then the decimal
      digits of the magnitude without leading zeros. */
  function IntToString(n: int): (s: string)
    ensures |s| >= 1 && IsFieldText(s) && !IsWhite(s[0])
    ensures s[0] == '-' <==> n < 0
    ensures n >= 0 ==> AllDigits(s) && DigitsValue(s) == n && (s[0] != '0' || s == "0")
    ensures n < 0 ==> |s| >= 2 && AllDigits(s[1..]) && DigitsValue(s[1..]) == -n && s[1] != '0'
  {
    if n < 0 then
      var digits := NatToString(-n);
      DigitsValueOfNatToString(-n);
      assert ("-" + digits)[1..] == digits;
      "-" + digits
    else
      DigitsValueOfNatToString(n);
      assert n == 0 ==> NatToString(n) == "0";
      NatToString(n)
  }

  /** `Integer.parseInt`: an optional `-` or `+`, then at least one ASCII
      digit, with a value inside the `int` range; `None` stands for the
      `NumberFormatException`. Leading and trailing blanks are not allowed. */
  function ParseInt(s: string): (r: Option<int32>)
    ensures r.Some? ==> |s| >= 1 && forall i :: 0 < i < |s| ==> IsDigit(s[i])
    ensures r.Some? ==> IsDigit(s[0]) || (|s| >= 2 && (s[0] == '-' || s[0] == '+'))
    ensures AllDigits(s) && |s| >= 1 ==>
      r == if DigitsValue(s) < 0x8000_0000 then Some(DigitsValue(s) as int32) else None
    ensures |s| >= 2 && s[0] == '+' && AllDigits(s[1..]) ==>
      r == if DigitsValue(s[1..]) < 0x8000_0000 then Some(DigitsValue(s[1..]) as int32) else None
    ensures |s| >= 2 && s[0] == '-' && AllDigits(s[1..]) ==>
      r == if DigitsValue(s[1..]) <= 0x8000_0000 then Some((-(DigitsValue(s[1..]) as int)) as int32) else None
  {
    if s == [] then None
    else
      var digits := if s[0] == '-' || s[0] == '+' then s[1..] else s;
      if digits == [] || !AllDigits(digits) then None
      else
        var magnitude: int := DigitsValue(digits);
        var v := if s[0] == '-' then -magnitude else magnitude;
        if -0x8000_0000 <= v < 0x8000_0000 then Some(v as int32) else None
  }

  lemma {:induction false} DigitsValueOfNatToString(n: nat)
    ensures DigitsValue(NatToString(n)) == n
  {
    var s := NatToString(n);
    if n >= 10 {
      DigitsValueOfNatToString(n / 10);
      assert s[..|s| - 1] == NatToString(n / 10);
    }
  }

  /** What `%d` prints, `Integer.parseInt` reads back. */
  lemma ParseIntToString(n: int32)
    ensures ParseInt(IntToString(n as int)) == Some(n)
  {
    var m := n as int;
    if m < 0 {
      var digits := NatToString(-m);
      DigitsValueOfNatToString(-m);
      var s := "-" + digits;
      assert s[0] == '-' && s[1..] == digits;
      assert ParseInt(s) == Some(n);
    } else {
      DigitsValueOfNatToString(m);
      assert ParseInt(NatToString(m)) == Some(m as int32);
    }
  }
}

=== FILE: loading.dfy ===
/** Building the repository from the three data files: vehicles, then
    customers, then rental records, one line at a time.

    Decoding a line does not depend on the repository, so a loader is
    modelled as the decoded outcomes of its lines (`DecodeAll`) consumed in
    order by `Run`, which stops at the first abort or escaping exception
    exactly where the read loop stops. */
module Loading {
  import opened Wrappers
  import opened JavaText
  import opened Vehicles
  import opened Records
  import opened Codec
  import opened RentalSystem

  /** How reading one file ended: at its last line, at a caught
      `NumberFormatException` (the remaining lines are not read), or at an
      exception nothing catches. */
  datatype End = Completed | Aborted | Crashed(fault: Fault)

  datatype Loaded = Loaded(repo: Repository, end: End)

  /** The outcome of decoding each line. */
  function DecodeAll<T>(lines: seq<string>, decode: string -> Decoded<T>): (ds: seq<Decoded<T>>)
    ensures |ds| == |lines|
    ensures forall k :: 0 <= k < |lines| ==> ds[k] == decode(lines[k])
  {
    seq(|lines|, k requires 0 <= k < |lines| => decode(lines[k]))
  }

  lemma DecodeAllAppend<T>(a: seq<string>, b: seq<string>, decode: string -> Decoded<T>)
    ensures DecodeAll(a + b, decode) == DecodeAll(a, decode) + DecodeAll(b, decode)
  {
  }

  /** The read loop shared by the three loaders, over decoded lines: a
      skipped line is passed over, an abort or a fault ends the loop, and a
      decoded item is handed to `add`, which may still skip it (`None`). */
  function Run<T>(r: Repository, ds: seq<Decoded<T>>, add: (Repository, T) -> Option<Repository>): (l: Loaded)
    ensures l.end.Completed? <==> forall k :: 0 <= k < |ds| ==> ds[k].Skip? || ds[k].Item?
    ensures l.end == Aborted ==> Abort in ds
    ensures l.end.Crashed? ==> Thrown(l.end.fault) in ds
    decreases |ds|
  {
    if ds == [] then Loaded(r, Completed)
    else
      match ds[0]
      case Skip => Run(r, ds[1..], add)
      case Abort => Loaded(r, Aborted)
      case Thrown(f) => Loaded(r, Crashed(f))
      case Item(t) =>
        match add(r, t)
        case None => Run(r, ds[1..], add)
        case Some(r') => Run(r', ds[1..], add)
  }

  /** How a loader ends, in terms of its lines: it reads to the end exactly
      when every line is skipped or decoded, and otherwise stops at a line
      that aborts or throws. */
  lemma RunDecoded<T>(r: Repository, lines: seq<string>, decode: string -> Decoded<T>,
                      add: (Repository, T) -> Option<Repository>)
    ensures var l := Run(r, DecodeAll(lines, decode), add);
      && (l.end.Completed? <==> forall k :: 0 <= k < |lines| ==> decode(lines[k]).Skip? || decode(lines[k]).Item?)
      && (l.end == Aborted ==> exists k :: 0 <= k < |lines| && decode(lines[k]) == Abort)
      && (l.end.Crashed? ==> exists k :: 0 <= k < |lines| && decode(lines[k]) == Thrown(l.end.fault))
  {
    var ds := DecodeAll(lines, decode);
    var l := Run(r, ds, add);
    if l.end == Aborted {
      var k :| 0 <= k < |ds| && ds[k] == Abort;
      assert decode(lines[k]) == Abort;
    }
    if l.end.Crashed? {
      var k :| 0 <= k < |ds| && ds[k] == Thrown(l.end.fault);
      assert decode(lines[k]) == Thrown(l.end.fault);
    }
  }

  /** Reading `a + b` is reading `a`, then, only if `a` was read to its end,
      reading `b` from where `a` left off: after an abort or an escaping
      exception in `a`, no line of `b` has any effect. */
  lemma {:induction false} RunAppend<T>(r: Repository, a: seq<Decoded<T>>, b: seq<Decoded<T>>,
                                        add: (Repository, T) -> Option<Repository>)
    ensures Run(r, a + b, add) ==
      if Run(r, a, add).end.Completed? then Run(Run(r, a, add).repo, b, add) else Run(r, a, add)
    decreases |a|
  {
    if a == [] {
      assert a + b == b;
    } else {
      assert (a + b)[0] == a[0];
      assert (a + b)[1..] == a[1..] + b;
      match a[0]
      case Skip => RunAppend(r, a[1..], b, add);
      case Abort =>
      case Thrown(f) =>
      case Item(t) =>
        match add(r, t)
        case None => RunAppend(r, a[1..], b, add);
        case Some(r') => RunAppend(r', a[1..], b, add);
    }
  }

  /** A line that aborts ends the load where it is: whatever follows it,
      the result is the state reached before it, marked `Aborted`. */
  lemma AbortIgnoresRest<T>(r: Repository, before: seq<Decoded<T>>, after: seq<Decoded<T>>,
                            add: (Repository, T) -> Option<Repository>)
    requires Run(r, before, add).end.Completed?
    ensures Run(r, before + [Abort] + after, add) == Loaded(Run(r, before, add).repo, Aborted)
  {
    RunAppend(r, before, [Abort] + after, add);
    assert before + [Abort] + after == before + ([Abort] + after);
  }

  /** A property every accepted item keeps holds after the loop, however
      the loop ended. */
  lemma {:induction false} RunPreserves<T>(r: Repository, ds: seq<Decoded<T>>,
                                           add: (Repository, T) -> Option<Repository>,
                                           inv: Repository -> bool)
    requires inv(r)
    requires forall r0, t :: inv(r0) && add(r0, t).Some? ==> inv(add(r0, t).value)
    ensures inv(Run(r, ds, add).repo)
    decreases |ds|
  {
    if ds != [] {
      match ds[0]
      case Skip => RunPreserves(r, ds[1..], add, inv);
      case Abort =>
      case Thrown(f) =>
      case Item(t) =>
        match add(r, t)
        case None => RunPreserves(r, ds[1..], add, inv);
        case Some(r') => RunPreserves(r', ds[1..], add, inv);
    }
  }

  // ---------------------------------------------------------------------------
  // Vehicles

  /** The vehicle loop body after decoding: the new object is appended to
      the vehicle list twice, once inside the null check and once after it. */
  function AddLoadedVehicle(r: Repository, v: Vehicle): (o: Option<Repository>)
    ensures o.Some?
    ensures o.value.heap == r.heap + [v] && o.value.vehicles == r.vehicles + [|r.heap|, |r.heap|]
    ensures o.value.customers == r.customers && o.value.history == r.history && o.value.files == r.files
  {
    var a := Allocate(r, v);
    Some(a.repo.(vehicles := a.repo.vehicles + [a.ref, a.ref]))
  }

  /** The vehicle loader: it reads to the end exactly when no line aborts or
      throws; an abort comes from a line with a bad year, and an escaping
      exception is an unknown type tag or a bad plate. */
  function LoadVehicles(r: Repository, lines: seq<string>): (l: Loaded)
    ensures l.end.Completed? <==> forall k :: 0 <= k < |lines| ==>
      DecodeVehicleLine(lines[k]).Skip? || DecodeVehicleLine(lines[k]).Item?
    ensures l.end == Aborted ==> exists k :: 0 <= k < |lines| && DecodeVehicleLine(lines[k]).Abort?
    ensures l.end.Crashed? ==> l.end.fault == UnknownType || l.end.fault == BadPlate
  {
    RunDecoded(r, lines, DecodeVehicleLine, AddLoadedVehicle);
    Run(r, DecodeAll(lines, DecodeVehicleLine), AddLoadedVehicle)
  }

  /** `n` new objects from `base` on, each listed twice in a row. */
  function Pairs(base: nat, n: nat): (s: seq<Ref>)
    ensures |s| == 2 * n
  {
    if n == 0 then [] else Pairs(base, n - 1) + [base + n - 1, base + n - 1]
  }

  lemma {:induction false} PairsShift(base: nat, n: nat)
    ensures Pairs(base, n + 1) == [base, base] + Pairs(base + 1, n)
    decreases n
  {
    if n > 0 {
      PairsShift(base, n - 1);
    }
  }

  /** Loading vehicles keeps the existing objects, the customers, the
      history and the files. */
  lemma {:induction false} LoadVehiclesKeeps(r: Repository, ds: seq<Decoded<Vehicle>>)
    ensures var l := Run(r, ds, AddLoadedVehicle).repo;
      && |l.heap| >= |r.heap| && l.heap[..|r.heap|] == r.heap
      && l.customers == r.customers && l.history == r.history && l.files == r.files
    decreases |ds|
  {
    if ds != [] {
      match ds[0]
      case Skip => LoadVehiclesKeeps(r, ds[1..]);
      case Abort =>
      case Thrown(f) =>
      case Item(v) =>
        var r' := AddLoadedVehicle(r, v).value;
        assert Run(r, ds, AddLoadedVehicle) == Run(r', ds[1..], AddLoadedVehicle);
        LoadVehiclesKeeps(r', ds[1..]);
        var l := Run(r', ds[1..], AddLoadedVehicle).repo;
        assert l.heap[..|r.heap|] == l.heap[..|r'.heap|][..|r.heap|];
    }
  }

  /** Loading vehicles creates some number of new objects and lists each of
      them twice in a row, in file order, after the vehicles already listed. */
  lemma {:induction false} LoadVehiclesDoubles(r: Repository, ds: seq<Decoded<Vehicle>>)
    ensures var l := Run(r, ds, AddLoadedVehicle).repo;
      |l.heap| >= |r.heap| && l.vehicles == r.vehicles + Pairs(|r.heap|, |l.heap| - |r.heap|)
    decreases |ds|
  {
    LoadVehiclesKeeps(r, ds);
    if ds != [] {
      match ds[0]
      case Skip => LoadVehiclesDoubles(r, ds[1..]);
      case Abort =>
      case Thrown(f) =>
      case Item(v) =>
        var r' := AddLoadedVehicle(r, v).value;
        assert Run(r, ds, AddLoadedVehicle) == Run(r', ds[1..], AddLoadedVehicle);
        LoadVehiclesDoubles(r', ds[1..]);
        var l := Run(r', ds[1..], AddLoadedVehicle).repo;
        var h := |r.heap|;
        var n := |l.heap| - |r'.heap|;
        PairsShift(h, n);
        assert l.vehicles == (r.vehicles + [h, h]) + Pairs(h + 1, n);
        assert (r.vehicles + [h, h]) + Pairs(h + 1, n) == r.vehicles + ([h, h] + Pairs(h + 1, n));
    }
  }

  /** The objects a load creates are `Available`, and every listed or
      recorded reference points at an object with a plate. */
  predicate LoadedInvariant(r: Repository)
  {
    Valid(r) && forall x :: 0 <= x < |r.heap| ==> r.heap[x].status == Available
  }

  /** A decoded vehicle has a plate and is `Available`. */
  predicate Decodable(v: Vehicle)
  {
    v.licensePlate.Some? && v.status == Available
  }

  lemma AddLoadedVehicleKeeps(r: Repository, v: Vehicle)
    requires Decodable(v)
    ensures Valid(r) ==> Valid(AddLoadedVehicle(r, v).value)
    ensures LoadedInvariant(r) ==> LoadedInvariant(AddLoadedVehicle(r, v).value)
  {
    var l := AddLoadedVehicle(r, v).value;
    assert forall x :: 0 <= x < |r.heap| ==> l.heap[x] == r.heap[x];
  }

  /** Loading decoded vehicles keeps `Valid` and `LoadedInvariant`. */
  lemma {:induction false} LoadVehiclesValid(r: Repository, ds: seq<Decoded<Vehicle>>)
    requires forall k :: 0 <= k < |ds| && ds[k].Item? ==> Decodable(ds[k].value)
    ensures Valid(r) ==> Valid(Run(r, ds, AddLoadedVehicle).repo)
    ensures LoadedInvariant(r) ==> LoadedInvariant(Run(r, ds, AddLoadedVehicle).repo)
    decreases |ds|
  {
    if ds != [] {
      match ds[0]
      case Skip => LoadVehiclesValid(r, ds[1..]);
      case Abort =>
      case Thrown(f) =>
      case Item(v) =>
        AddLoadedVehicleKeeps(r, v);
        LoadVehiclesValid(AddLoadedVehicle(r, v).value, ds[1..]);
    }
  }

  /** Every vehicle the vehicle decoder yields has a plate and is `Available`. */
  lemma DecodedVehiclesDecodable(lines: seq<string>)
    ensures var ds := DecodeAll(lines, DecodeVehicleLine);
      forall k :: 0 <= k < |ds| && ds[k].Item? ==> Decodable(ds[k].value)
  {
  }

  /** Because every loaded vehicle is listed twice, a load that creates any
      vehicle leaves two list entries with the same plate. */
  lemma LoadedVehiclesRepeated(r: Repository, ds: seq<Decoded<Vehicle>>)
    requires Valid(r)
    requires forall k :: 0 <= k < |ds| && ds[k].Item? ==> Decodable(ds[k].value)
    requires |Run(r, ds, AddLoadedVehicle).repo.heap| > |r.heap|
    ensures !PlatesDistinct(Run(r, ds, AddLoadedVehicle).repo)
  {
    var l := Run(r, ds, AddLoadedVehicle).repo;
    LoadVehiclesDoubles(r, ds);
    LoadVehiclesValid(r, ds);
    var i := |r.vehicles|;
    var h := |r.heap|;
    var n := |l.heap| - h;
    PairsShift(h, n - 1);
    assert l.vehicles == r.vehicles + ([h, h] + Pairs(h + 1, n - 1));
    assert l.vehicles[i] == h && l.vehicles[i + 1] == h;
    assert ListedPlate(l, i) == ListedPlate(l, i + 1);
    assert Matches(l, i, ListedPlate(l, i + 1).value);
  }

  /** The same, for a vehicle file: loading any vehicle breaks the
      plate uniqueness that `addVehicle` keeps. */
  lemma LoadedVehicleFileRepeated(r: Repository, lines: seq<string>)
    requires Valid(r)
    requires |LoadVehicles(r, lines).repo.heap| > |r.heap|
    ensures !PlatesDistinct(LoadVehicles(r, lines).repo)
  {
    DecodedVehiclesDecodable(lines);
    LoadedVehiclesRepeated(r, DecodeAll(lines, DecodeVehicleLine));
  }

  /** `loaded` is what reading back the saved `saved` yields: the same plate,
      make, model, year and kind, the kind's extra fields at the loader's
      defaults, and `Available`. */
  predicate Restores(loaded: Vehicle, saved: Vehicle)
  {
    && loaded.licensePlate == saved.licensePlate
    && loaded.make == saved.make && loaded.model == saved.model && loaded.year == saved.year
    && Some(loaded.variant) == VariantFromTag(SimpleName(saved.variant))
    && loaded.status == Available
  }

  /** Lines that all decode to vehicles are read to the end, creating one
      object per line, in order. */
  lemma {:induction false} RunVehicleItems(r: Repository, ds: seq<Decoded<Vehicle>>)
    requires forall k :: 0 <= k < |ds| ==> ds[k].Item?
    ensures var l := Run(r, ds, AddLoadedVehicle);
      && l.end == Completed && |l.repo.heap| == |r.heap| + |ds|
      && forall k :: 0 <= k < |ds| ==> l.repo.heap[|r.heap| + k] == ds[k].value
    decreases |ds|
  {
    if ds != [] {
      var r' := AddLoadedVehicle(r, ds[0].value).value;
      RunVehicleItems(r', ds[1..]);
      LoadVehiclesKeeps(r', ds[1..]);
      var l := Run(r', ds[1..], AddLoadedVehicle).repo;
      assert l.heap[|r.heap|] == l.heap[..|r'.heap|][|r.heap|];
      forall k | 1 <= k < |ds|
        ensures l.heap[|r.heap| + k] == ds[k].value
      {
        assert ds[k] == ds[1..][k - 1];
      }
    }
  }

  /** A vehicle file made of saved vehicles loads to its end and creates one
      object per line, carrying the saved plate, make, model, year and type. */
  lemma SavedVehiclesReload(r: Repository, vs: seq<Vehicle>, lines: seq<string>)
    requires |lines| == |vs|
    requires forall k :: 0 <= k < |vs| ==> Storable(vs[k]) && lines[k] == EncodeVehicle(vs[k])
    ensures var l := LoadVehicles(r, lines);
      && l.end == Completed
      && |l.repo.heap| == |r.heap| + |vs|
      && forall k :: 0 <= k < |vs| ==> Restores(l.repo.heap[|r.heap| + k], vs[k])
  {
    var ds := DecodeAll(lines, DecodeVehicleLine);
    forall k | 0 <= k < |vs|
      ensures ds[k].Item? && Restores(ds[k].value, vs[k])
    {
      VehicleLineRoundTrip(vs[k]);
    }
    RunVehicleItems(r, ds);
  }

  /** A vehicle accepted by `addVehicle` is in the file: a later load that
      reads the old file to its end also reads the new line and recreates
      the vehicle after the ones it recreated before. */
  lemma AddedVehicleReloads(r: Repository, x: Ref, start: Repository)
    requires x < |r.heap| && Storable(r.heap[x])
    requires AddVehicle(r, x).ok
    requires LoadVehicles(start, r.files.vehicleLines).end == Completed
    ensures var before := LoadVehicles(start, r.files.vehicleLines).repo;
      var after := LoadVehicles(start, AddVehicle(r, x).repo.files.vehicleLines);
      && after.end == Completed
      && |after.repo.heap| == |before.heap| + 1
      && after.repo.heap[..|before.heap|] == before.heap
      && Restores(after.repo.heap[|before.heap|], r.heap[x])
  {
    var prior := r.files.vehicleLines;
    var line := EncodeVehicle(r.heap[x]);
    StorableLineText(r.heap[x]);
    TextLinesOfLineText(line);
    DecodeAllAppend(prior, [line], DecodeVehicleLine);
    RunAppend(start, DecodeAll(prior, DecodeVehicleLine), DecodeAll([line], DecodeVehicleLine), AddLoadedVehicle);
    var before := LoadVehicles(start, prior).repo;
    SavedVehiclesReload(before, [r.heap[x]], [line]);
    LoadVehiclesKeeps(before, DecodeAll([line], DecodeVehicleLine));
  }

  /** A vehicle whose plate was never set is accepted by `addVehicle` and
      saved with the plate text `null`; a later load that reads the old
      file to its end then stops on the new line with a bad-plate fault. */
  lemma PlatelessVehicleBreaksReload(r: Repository, x: Ref, start: Repository)
    requires x < |r.heap| && r.heap[x].licensePlate.None?
    requires IsFieldText(r.heap[x].make) && IsFieldText(r.heap[x].model)
    requires LoadVehicles(start, r.files.vehicleLines).end == Completed
    ensures AddVehicle(r, x).ok
    ensures LoadVehicles(start, AddVehicle(r, x).repo.files.vehicleLines).end == Crashed(BadPlate)
  {
    var line := EncodeVehicle(r.heap[x]);
    PlatelessAdded(r, x);
    PlatelessLineThrows(r.heap[x]);
    ThrowingLineEndsLoad(start, r.files.vehicleLines, line);
  }

  /** `addVehicle` accepts a vehicle without a plate and appends its line. */
  lemma PlatelessAdded(r: Repository, x: Ref)
    requires x < |r.heap| && r.heap[x].licensePlate.None?
    requires IsFieldText(r.heap[x].make) && IsFieldText(r.heap[x].model)
    ensures AddVehicle(r, x).ok
    ensures AddVehicle(r, x).repo.files.vehicleLines == r.files.vehicleLines + [EncodeVehicle(r.heap[x])]
  {
    assert IsLineText(EncodeVehicle(r.heap[x])) by {
      assert IsLineText("null");
      FieldTextIsLineText(r.heap[x].make);
      FieldTextIsLineText(r.heap[x].model);
    }
    TextLinesOfLineText(EncodeVehicle(r.heap[x]));
  }

  /** A vehicle line that throws, read after a file that was read to its
      end, ends the load with its fault. */
  lemma ThrowingLineEndsLoad(start: Repository, prior: seq<string>, line: string)
    requires LoadVehicles(start, prior).end == Completed && DecodeVehicleLine(line).Thrown?
    ensures LoadVehicles(start, prior + [line]).end == Crashed(DecodeVehicleLine(line).fault)
  {
    var d := DecodeVehicleLine(line);
    var ds := DecodeAll(prior, DecodeVehicleLine);
    assert DecodeAll(prior + [line], DecodeVehicleLine) == ds + [d] by {
      assert DecodeAll([line], DecodeVehicleLine) == [d];
      DecodeAllAppend(prior, [line], DecodeVehicleLine);
    }
    RunAppend(start, ds, [d], AddLoadedVehicle);
    assert Run(Run(start, ds, AddLoadedVehicle).repo, [d], AddLoadedVehicle).end == Crashed(d.fault);
  }

  // ---------------------------------------------------------------------------
  // Customers

  /** The customer loop body after decoding: the customer is appended as it
      is; ids are not checked against the customers already loaded. */
  function AddLoadedCustomer(r: Repository, c: Customer): (o: Option<Repository>)
    ensures o == Some(r.(customers := r.customers + [c]))
  {
    Some(r.(customers := r.customers + [c]))
  }

  /** The customer loader: it never throws, and it reads to the end exactly
      when no line has a bad id. */
  function LoadCustomers(r: Repository, lines: seq<string>): (l: Loaded)
    ensures !l.end.Crashed?
    ensures l.end.Completed? <==> forall k :: 0 <= k < |lines| ==> !DecodeCustomerLine(lines[k]).Abort?
  {
    RunDecoded(r, lines, DecodeCustomerLine, AddLoadedCustomer);
    Run(r, DecodeAll(lines, DecodeCustomerLine), AddLoadedCustomer)
  }

  /** Loading customers appends to the customer list, touches nothing else
      and never crashes. */
  lemma {:induction false} LoadCustomersOnlyAppends(r: Repository, ds: seq<Decoded<Customer>>)
    requires forall k :: 0 <= k < |ds| ==> !ds[k].Thrown?
    ensures var l := Run(r, ds, AddLoadedCustomer);
      && !l.end.Crashed?
      && l.repo == r.(customers := l.repo.customers)
      && |l.repo.customers| >= |r.customers| && l.repo.customers[..|r.customers|] == r.customers
    decreases |ds|
  {
    if ds != [] {
      assert !ds[0].Thrown?;
      match ds[0]
      case Skip => LoadCustomersOnlyAppends(r, ds[1..]);
      case Abort =>
      case Item(c) =>
        var r' := AddLoadedCustomer(r, c).value;
        LoadCustomersOnlyAppends(r', ds[1..]);
        var l := Run(r', ds[1..], AddLoadedCustomer).repo;
        assert l.customers[..|r.customers|] == l.customers[..|r'.customers|][..|r.customers|];
    }
  }

  /** Lines that all decode to customers are read to the end and append
      exactly those customers, in order. */
  lemma {:induction false} RunCustomerItems(r: Repository, ds: seq<Decoded<Customer>>, cs: seq<Customer>)
    requires |ds| == |cs| && forall k :: 0 <= k < |ds| ==> ds[k] == Item(cs[k])
    ensures Run(r, ds, AddLoadedCustomer) == Loaded(r.(customers := r.customers + cs), Completed)
    decreases |ds|
  {
    if ds != [] {
      var r' := r.(customers := r.customers + [cs[0]]);
      RunCustomerItems(r', ds[1..], cs[1..]);
      assert r.customers + [cs[0]] + cs[1..] == r.customers + cs;
    }
  }

  /** A customer file made of saved customers with non-empty, separator-free
      names loads to its end and yields exactly those customers, in order. */
  lemma SavedCustomersReload(r: Repository, cs: seq<Customer>, lines: seq<string>)
    requires |lines| == |cs|
    requires forall k :: 0 <= k < |cs| ==>
      cs[k].customerName != [] && IsFieldText(cs[k].customerName) && lines[k] == EncodeCustomer(cs[k])
    ensures LoadCustomers(r, lines) == Loaded(r.(customers := r.customers + cs), Completed)
  {
    var ds := DecodeAll(lines, DecodeCustomerLine);
    forall k | 0 <= k < |cs|
      ensures ds[k] == Item(cs[k])
    {
      CustomerLineRoundTrip(cs[k]);
    }
    RunCustomerItems(r, ds, cs);
  }

  /** The same customer saved twice is loaded twice: the loader does not
      keep ids distinct. */
  lemma DuplicateCustomerLoadedTwice(r: Repository, c: Customer)
    requires c.customerName != [] && IsFieldText(c.customerName)
    ensures var l := LoadCustomers(r, [EncodeCustomer(c), EncodeCustomer(c)]);
      l.end == Completed && l.repo.customers == r.customers + [c, c] && !IdsDistinct(l.repo.customers)
  {
    SavedCustomersReload(r, [c, c], [EncodeCustomer(c), EncodeCustomer(c)]);
    var cs := r.customers + [c, c];
    assert cs[|r.customers|].customerId == cs[|r.customers| + 1].customerId;
  }

  /** A customer accepted by `addCustomer` with a non-empty, separator-free
      name is in the file: a later load that reads the old file to its end
      also reads the new line and yields that customer last. */
  lemma AddedCustomerReloads(r: Repository, c: Customer, start: Repository)
    requires c.customerName != [] && IsFieldText(c.customerName)
    requires AddCustomer(r, c).ok
    requires LoadCustomers(start, r.files.customerLines).end == Completed
    ensures var before := LoadCustomers(start, r.files.customerLines).repo;
      LoadCustomers(start, AddCustomer(r, c).repo.files.customerLines)
        == Loaded(before.(customers := before.customers + [c]), Completed)
  {
    var prior := r.files.customerLines;
    var line := EncodeCustomer(c);
    FieldTextIsLineText(c.customerName);
    TextLinesOfLineText(line);
    DecodeAllAppend(prior, [line], DecodeCustomerLine);
    RunAppend(start, DecodeAll(prior, DecodeCustomerLine), DecodeAll([line], DecodeCustomerLine), AddLoadedCustomer);
    var before := LoadCustomers(start, prior).repo;
    SavedCustomersReload(before, [c], [line]);
  }

  /** A name holding a line break is printed across two lines: the next load
      reads a customer with the name cut at the break, and skips the rest of
      the name as a one-field line. */
  lemma NameWithLineBreakCut(r: Repository)
    requires AddCustomer(r, Customer(1, "a\nb")).ok
    ensures AddCustomer(r, Customer(1, "a\nb")).repo.files.customerLines == r.files.customerLines + ["1,a", "b"]
    ensures DecodeCustomerLine("1,a") == Item(Customer(1, "a"))
    ensures DecodeCustomerLine("b") == Skip
  {
    var c := Customer(1, "a\nb");
    var lines := AddCustomer(r, c).repo.files.customerLines;
    assert lines == r.files.customerLines + TextLines(EncodeCustomer(c));
    BrokenLineWritten();
    BrokenLineRead();
    BrokenLineDecoded();
  }

  lemma BrokenLineWritten()
    ensures EncodeCustomer(Customer(1, "a\nb")) == "1,a\nb"
  {
    assert IntToString(1) == "1";
    assert Join(["1", "a\nb"]) == "1" + "," + "a\nb";
  }

  lemma BrokenLineRead()
    ensures TextLines("1,a\nb") == ["1,a", "b"]
  {
    var text := "1,a\nb";
    assert LineEnd(text) == 3 by {
      assert LineEnd(text[3..]) == 0;
      assert LineEnd(text[2..]) == 1 by { assert text[2..][1..] == text[3..]; }
      assert LineEnd(text[1..]) == 2 by { assert text[1..][1..] == text[2..]; }
    }
    assert text[..3] == "1,a" && text[4..] == "b";
    TextLinesOfLineText("b");
  }

  lemma BrokenLineDecoded()
    ensures DecodeCustomerLine("1,a") == Item(Customer(1, "a"))
    ensures DecodeCustomerLine("b") == Skip
  {
    SplitFields(["1", "a"]);
    assert Join(["1", "a"]) == "1,a";
    assert ParseInt("1") == Some(1);
    SplitAllNoComma("b");
  }

  // ---------------------------------------------------------------------------
  // Rental records

  /** The record loop body after decoding: the plate and id are resolved
      with the lookups; a record whose vehicle or customer is not found is
      skipped; otherwise the record, sharing the found vehicle object, is
      appended to the history. */
  function AddLoadedRecord(r: Repository, f: RecordFields): (o: Option<Repository>)
    ensures o.None? <==> FindVehicleByPlate(r, f.plate).None? || FindCustomerById(r, f.customerId).None?
    ensures o.Some? ==> o.value == r.(history := r.history + [RentalRecord(
      FindVehicleByPlate(r, f.plate).value, FindCustomerById(r, f.customerId).value,
      f.date, f.amount, f.recordType)])
  {
    match (FindVehicleByPlate(r, f.plate), FindCustomerById(r, f.customerId))
    case (Some(x), Some(c)) => Some(r.(history := r.history + [RentalRecord(x, c, f.date, f.amount, f.recordType)]))
    case _ => None
  }

  /** The record loader: the only exception that escapes it is a bad date,
      and it reads to the end exactly when every line is skipped or decoded. */
  function LoadRecords(r: Repository, lines: seq<string>, parseDate: string -> Option<Date>,
                       parseAmount: string -> Option<Amount>): (l: Loaded)
    ensures l.end.Crashed? ==> l.end.fault == BadDate
    ensures l.end.Completed? <==> forall k :: 0 <= k < |lines| ==>
      var d := DecodeRecordLine(lines[k], parseDate, parseAmount); d.Skip? || d.Item?
  {
    var decode := line => DecodeRecordLine(line, parseDate, parseAmount);
    RunDecoded(r, lines, decode, AddLoadedRecord);
    Run(r, DecodeAll(lines, decode), AddLoadedRecord)
  }

  /** Loading records appends to the history and touches nothing else, and
      every appended record refers to a listed vehicle and a loaded customer. */
  lemma {:induction false} LoadRecordsOnlyAppends(r: Repository, ds: seq<Decoded<RecordFields>>)
    ensures var l := Run(r, ds, AddLoadedRecord).repo;
      && l == r.(history := l.history)
      && |l.history| >= |r.history| && l.history[..|r.history|] == r.history
      && forall k :: |r.history| <= k < |l.history| ==>
           l.history[k].vehicle in r.vehicles && l.history[k].customer in r.customers
    decreases |ds|
  {
    if ds != [] {
      match ds[0]
      case Skip => LoadRecordsOnlyAppends(r, ds[1..]);
      case Abort =>
      case Thrown(_) =>
      case Item(f) =>
        match AddLoadedRecord(r, f)
        case None => LoadRecordsOnlyAppends(r, ds[1..]);
        case Some(r') =>
          LoadRecordsOnlyAppends(r', ds[1..]);
          var l := Run(r', ds[1..], AddLoadedRecord).repo;
          assert l.history[..|r.history|] == l.history[..|r'.history|][..|r.history|];
          assert l.history[|r.history|] == r'.history[|r.history|];
    }
  }

  // ---------------------------------------------------------------------------
  // loadData

  /** `loadData`, run when the repository is first created: vehicles, then
      customers, then records. An exception that escapes any loader means
      no repository is built. */
  function LoadData(files: Files, parseDate: string -> Option<Date>,
                    parseAmount: string -> Option<Amount>): (res: Result<Repository, Fault>)
    ensures var v := LoadVehicles(Empty(files), files.vehicleLines);
      && (v.end.Crashed? ==> res == Failure(v.end.fault))
      && (!v.end.Crashed? ==>
            var c := LoadCustomers(v.repo, files.customerLines);
            var h := LoadRecords(c.repo, files.recordLines, parseDate, parseAmount);
            res == if h.end.Crashed? then Failure(h.end.fault) else Success(h.repo))
    ensures res.Success? ==> res.value.files == files && LoadedInvariant(res.value)
  {
    var v := LoadVehicles(Empty(files), files.vehicleLines);
    if v.end.Crashed? then Failure(v.end.fault)
    else
      var c := LoadCustomers(v.repo, files.customerLines);
      var h := LoadRecords(c.repo, files.recordLines, parseDate, parseAmount);
      LoadDataKeeps(files, v, c, h, parseDate, parseAmount);
      if h.end.Crashed? then Failure(h.end.fault) else Success(h.repo)
  }

  /** The three loads, from the empty repository, keep `LoadedInvariant`
      and the files. */
  lemma LoadDataKeeps(files: Files, v: Loaded, c: Loaded, h: Loaded,
                      parseDate: string -> Option<Date>, parseAmount: string -> Option<Amount>)
    requires v == LoadVehicles(Empty(files), files.vehicleLines)
    requires c == LoadCustomers(v.repo, files.customerLines)
    requires h == LoadRecords(c.repo, files.recordLines, parseDate, parseAmount)
    ensures h.repo.files == files && LoadedInvariant(h.repo)
  {
    var vds := DecodeAll(files.vehicleLines, DecodeVehicleLine);
    DecodedVehiclesDecodable(files.vehicleLines);
    LoadVehiclesValid(Empty(files), vds);
    LoadVehiclesKeeps(Empty(files), vds);
    var cds := DecodeAll(files.customerLines, DecodeCustomerLine);
    LoadCustomersOnlyAppends(v.repo, cds);
    var rds := DecodeAll(files.recordLines, line => DecodeRecordLine(line, parseDate, parseAmount));
    LoadRecordsOnlyAppends(c.repo, rds);
    LoadedRecordsValid(c.repo, h.repo);
  }

  /** Appending records that refer to listed vehicles keeps `LoadedInvariant`. */
  lemma LoadedRecordsValid(before: Repository, after: Repository)
    requires LoadedInvariant(before)
    requires after == before.(history := after.history)
    requires |after.history| >= |before.history| && after.history[..|before.history|] == before.history
    requires forall k :: |before.history| <= k < |after.history| ==> after.history[k].vehicle in before.vehicles
    ensures LoadedInvariant(after)
  {
    forall k | 0 <= k < |after.history|
      ensures after.history[k].vehicle < |after.heap|
    {
      if k < |before.history| {
        assert after.history[k] == before.history[k];
      }
    }
  }

  /** Loading ignores the history when it sets vehicle states: right after a
      load every vehicle is `Available`, even one whose last loaded record is
      a RENT, so renting it again succeeds. */
  lemma LoadedRentedVehicleAvailable(files: Files, parseDate: string -> Option<Date>,
                                     parseAmount: string -> Option<Amount>, x: Ref,
                                     customer: Customer, date: Date, amount: Amount)
    requires LoadData(files, parseDate, parseAmount).Success?
    requires x < |LoadData(files, parseDate, parseAmount).value.heap|
    ensures RentVehicle(LoadData(files, parseDate, parseAmount).value, x, customer, date, amount).ok
  {
  }
}

=== FILE: records.dfy ===
/** Customers and the rental log entries that refer to vehicles and customers. */
module Records {
  import opened JavaText

  /** A reference to a vehicle object: its position in the store of every
      vehicle object the program has created. Two references are the same
      object exactly when they are equal. */
  type Ref = nat

  /** A customer: an integer key and a display name. */
  datatype Customer = Customer(customerId: int32, customerName: string)

  /** A calendar date, kept abstract; its text form is outside this model. */
  datatype Date = Date(epochDay: int)

  /** A money amount, kept abstract; its `double` value and text form are
      outside this model. */
  datatype Amount = Amount(cents: int)

  /** One log entry. The vehicle is shared with the vehicle list, so a later
      status change is visible through the record as well; the customer is
      immutable and kept by value. */
  datatype RentalRecord = RentalRecord(
    vehicle: Ref,
    customer: Customer,
    recordDate: Date,
    totalAmount: Amount,
    recordType: string)

  const RENT: string := "RENT"
  const RETURN: string := "RETURN"
}

=== FILE: repository.dfy ===
/** The in-memory repository: the vehicle list, the customer list and the
    rental history, the duplicate-key checks on adding, the Available/Rented
    transitions, the lookups, and the lines each add appends to the files. */
module RentalSystem {
  import opened Wrappers
  import opened JavaText
  import opened Vehicles
  import opened Records
  import opened Codec

  /** The three data files, each a sequence of lines. */
  datatype Files = Files(vehicleLines: seq<string>, customerLines: seq<string>, recordLines: seq<string>)

  /** The repository state. `heap` holds every vehicle object the program
      has created, listed or not, so that the vehicle list and the rental
      records can share objects through `Ref`s. */
  datatype Repository = Repository(
    heap: seq<Vehicle>,
    vehicles: seq<Ref>,
    customers: seq<Customer>,
    history: seq<RentalRecord>,
    files: Files)

  /** The boolean an operation returns, and the state after it. */
  datatype Change = Change(ok: bool, repo: Repository)

  /** A vehicle object together with the state it was created in. */
  datatype Allocated = Allocated(repo: Repository, ref: Ref)

  /** The state before loading: empty collections, files as found on disk.
      It meets every invariant of the repository, and no lookup finds
      anything in it. */
  function Empty(files: Files): (e: Repository)
    ensures e.files == files
    ensures Valid(e) && PlatesDistinct(e) && IdsDistinct(e.customers) && StatusFollowsHistory(e)
    ensures forall p :: FindVehicleByPlate(e, p).None?
    ensures forall id :: FindCustomerById(e, id).None?
  {
    Repository([], [], [], [], files)
  }

  /** Every listed reference and every record's reference points at an
      object, and every listed vehicle has a plate. */
  predicate Valid(r: Repository)
  {
    && (forall i :: 0 <= i < |r.vehicles| ==> r.vehicles[i] < |r.heap| && r.heap[r.vehicles[i]].licensePlate.Some?)
    && (forall k :: 0 <= k < |r.history| ==> r.history[k].vehicle < |r.heap|)
  }

  /** Creating a vehicle object (`new Car(...)` and so on): it joins the
      object store under a fresh reference and no list. */
  function Allocate(r: Repository, v: Vehicle): (a: Allocated)
    ensures a.ref == |r.heap| && a.repo.heap == r.heap + [v]
    ensures a.repo.vehicles == r.vehicles && a.repo.customers == r.customers
    ensures a.repo.history == r.history && a.repo.files == r.files
    ensures Valid(r) ==> Valid(a.repo)
  {
    Allocated(r.(heap := r.heap + [v]), |r.heap|)
  }

  // ---------------------------------------------------------------------------
  // Lookups

  /** The plate of the vehicle at position `i` of the list. */
  function ListedPlate(r: Repository, i: nat): Option<string>
    requires i < |r.vehicles|
  {
    if r.vehicles[i] < |r.heap| then r.heap[r.vehicles[i]].licensePlate else None
  }

  /** The vehicle at position `i` has plate `p`, ignoring case. */
  predicate Matches(r: Repository, i: nat, p: string)
    requires i < |r.vehicles|
  {
    ListedPlate(r, i).Some? && EqualsIgnoreCase(ListedPlate(r, i).value, p)
  }

  /** The first position at or after `from` whose plate matches `p`, or the
      list length when there is none. */
  function PlateIndex(r: Repository, p: string, from: nat): (i: nat)
    requires from <= |r.vehicles|
    ensures from <= i <= |r.vehicles|
    ensures forall j :: from <= j < i ==> !Matches(r, j, p)
    ensures i < |r.vehicles| ==> Matches(r, i, p)
    decreases |r.vehicles| - from
  {
    if from == |r.vehicles| || Matches(r, from, p) then from else PlateIndex(r, p, from + 1)
  }

  /** `findVehicleByPlate`: the first listed vehicle, in insertion order,
      whose plate equals `p` ignoring case; `None` when no plate does. */
  function FindVehicleByPlate(r: Repository, p: string): (o: Option<Ref>)
    ensures o.None? <==> forall i :: 0 <= i < |r.vehicles| ==> !Matches(r, i, p)
    ensures o.Some? ==> exists i :: 0 <= i < |r.vehicles| && r.vehicles[i] == o.value && Matches(r, i, p)
                                    && forall j :: 0 <= j < i ==> !Matches(r, j, p)
  {
    var i := PlateIndex(r, p, 0);
    if i < |r.vehicles| then Some(r.vehicles[i]) else None
  }

  /** The first position at or after `from` holding customer `id`, or the
      list length when there is none. */
  function IdIndex(cs: seq<Customer>, id: int32, from: nat): (i: nat)
    requires from <= |cs|
    ensures from <= i <= |cs|
    ensures forall j :: from <= j < i ==> cs[j].customerId != id
    ensures i < |cs| ==> cs[i].customerId == id
    decreases |cs| - from
  {
    if from == |cs| || cs[from].customerId == id then from else IdIndex(cs, id, from + 1)
  }

  /** `findCustomerById`: the first customer, in insertion order, with that
      id; `None` when there is none. */
  function FindCustomerById(r: Repository, id: int32): (o: Option<Customer>)
    ensures o.None? <==> forall i :: 0 <= i < |r.customers| ==> r.customers[i].customerId != id
    ensures o.Some? ==> exists i :: 0 <= i < |r.customers| && r.customers[i] == o.value && o.value.customerId == id
                                    && forall j :: 0 <= j < i ==> r.customers[j].customerId != id
  {
    var i := IdIndex(r.customers, id, 0);
    if i < |r.customers| then Some(r.customers[i]) else None
  }

  // ---------------------------------------------------------------------------
  // Key invariants

  /** No two listed vehicles share a plate, ignoring case. */
  predicate PlatesDistinct(r: Repository)
  {
    forall i, j :: 0 <= i < j < |r.vehicles| && ListedPlate(r, j).Some? ==> !Matches(r, i, ListedPlate(r, j).value)
  }

  /** No two customers share an id. */
  predicate IdsDistinct(cs: seq<Customer>)
  {
    forall i, j :: 0 <= i < j < |cs| ==> cs[i].customerId != cs[j].customerId
  }

  // ---------------------------------------------------------------------------
  // Adds

  /** No listed vehicle has `plate`, ignoring case. A missing plate equals
      no plate, since `equalsIgnoreCase(null)` is false. */
  predicate Unlisted(r: Repository, plate: Option<string>)
  {
    plate.None? || forall i :: 0 <= i < |r.vehicles| ==> !Matches(r, i, plate.value)
  }

  /** Appending a vehicle whose plate no listed vehicle matches keeps the
      plates distinct. */
  lemma AppendUnmatched(r: Repository, r': Repository, x: Ref)
    requires x < |r.heap| && Unlisted(r, r.heap[x].licensePlate)
    requires r'.heap == r.heap && r'.vehicles == r.vehicles + [x]
    ensures forall i :: 0 <= i < |r.vehicles| ==> ListedPlate(r', i) == ListedPlate(r, i)
    ensures PlatesDistinct(r) ==> PlatesDistinct(r')
  {
    var n := |r.vehicles|;
    assert forall i :: 0 <= i < n ==> ListedPlate(r', i) == ListedPlate(r, i);
    if PlatesDistinct(r) {
      forall i, j | 0 <= i < j < |r'.vehicles| && ListedPlate(r', j).Some?
        ensures !Matches(r', i, ListedPlate(r', j).value)
      {
        assert ListedPlate(r', i) == ListedPlate(r, i);
        if j < n {
          assert ListedPlate(r', j) == ListedPlate(r, j);
          assert !Matches(r, i, ListedPlate(r, j).value);
        } else {
          assert ListedPlate(r', j) == r.heap[x].licensePlate;
          assert !Matches(r, i, ListedPlate(r', j).value);
        }
      }
    }
  }

  /** `addVehicle`: refused, with nothing changed, when a listed vehicle has
      the same plate ignoring case; otherwise the vehicle is appended to the
      list and the lines its printed text reads back as to the vehicle file,
      and nothing else changes. A vehicle without a plate is never refused. */
  function AddVehicle(r: Repository, x: Ref): (c: Change)
    requires x < |r.heap|
    ensures c.ok <==> Unlisted(r, r.heap[x].licensePlate)
    ensures !c.ok ==> c.repo == r
    ensures c.ok ==> c.repo.vehicles == r.vehicles + [x]
    ensures c.ok ==> c.repo.files.vehicleLines == r.files.vehicleLines + TextLines(EncodeVehicle(r.heap[x]))
    ensures c.repo.heap == r.heap && c.repo.customers == r.customers && c.repo.history == r.history
    ensures c.repo.files.customerLines == r.files.customerLines && c.repo.files.recordLines == r.files.recordLines
    ensures Valid(r) && r.heap[x].licensePlate.Some? ==> Valid(c.repo)
    ensures PlatesDistinct(r) ==> PlatesDistinct(c.repo)
  {
    if r.heap[x].licensePlate.Some? && FindVehicleByPlate(r, r.heap[x].licensePlate.value).Some? then Change(false, r)
    else
      var r' := r.(vehicles := r.vehicles + [x],
                   files := r.files.(vehicleLines := r.files.vehicleLines + TextLines(EncodeVehicle(r.heap[x]))));
      AppendUnmatched(r, r', x);
      Change(true, r')
  }

  /** `addCustomer`: refused, with nothing changed, when a customer with the
      same id exists; otherwise the customer is appended to the list and the
      lines its printed text reads back as to the customer file, and nothing
      else changes. */
  function AddCustomer(r: Repository, customer: Customer): (c: Change)
    ensures c.ok <==> forall i :: 0 <= i < |r.customers| ==> r.customers[i].customerId != customer.customerId
    ensures !c.ok ==> c.repo == r
    ensures c.ok ==> c.repo.customers == r.customers + [customer]
    ensures c.ok ==> c.repo.files.customerLines == r.files.customerLines + TextLines(EncodeCustomer(customer))
    ensures c.repo.heap == r.heap && c.repo.vehicles == r.vehicles && c.repo.history == r.history
    ensures c.repo.files.vehicleLines == r.files.vehicleLines && c.repo.files.recordLines == r.files.recordLines
    ensures IdsDistinct(r.customers) ==> IdsDistinct(c.repo.customers)
  {
    if FindCustomerById(r, customer.customerId).Some? then Change(false, r)
    else
      Change(true, r.(customers := r.customers + [customer],
                      files := r.files.(customerLines := r.files.customerLines + TextLines(EncodeCustomer(customer)))))
  }

  /** A series of `addCustomer` calls. */
  function AddCustomers(r: Repository, cs: seq<Customer>): Repository
    decreases |cs|
  {
    if cs == [] then r else AddCustomers(AddCustomer(r, cs[0]).repo, cs[1..])
  }

  /** Whatever customers are offered, the customer ids stay pairwise distinct. */
  lemma {:induction false} AddCustomersKeepIdsDistinct(r: Repository, cs: seq<Customer>)
    requires IdsDistinct(r.customers)
    ensures IdsDistinct(AddCustomers(r, cs).customers)
    decreases |cs|
  {
    if cs != [] {
      AddCustomersKeepIdsDistinct(AddCustomer(r, cs[0]).repo, cs[1..]);
    }
  }

  /** A series of `addVehicle` calls. */
  function AddVehicles(r: Repository, xs: seq<Ref>): Repository
    requires forall k :: 0 <= k < |xs| ==> xs[k] < |r.heap|
    decreases |xs|
  {
    if xs == [] then r else AddVehicles(AddVehicle(r, xs[0]).repo, xs[1..])
  }

  /** Whatever vehicles are offered, the listed plates stay pairwise distinct
      ignoring case. */
  lemma {:induction false} AddVehiclesKeepPlatesDistinct(r: Repository, xs: seq<Ref>)
    requires forall k :: 0 <= k < |xs| ==> xs[k] < |r.heap|
    requires PlatesDistinct(r)
    ensures PlatesDistinct(AddVehicles(r, xs))
    decreases |xs|
  {
    if xs != [] {
      AddVehiclesKeepPlatesDistinct(AddVehicle(r, xs[0]).repo, xs[1..]);
    }
  }

  /** A vehicle just added is what a lookup by its plate, in any case, finds. */
  lemma AddedVehicleFound(r: Repository, x: Ref, p: string)
    requires x < |r.heap| && r.heap[x].licensePlate.Some?
    requires AddVehicle(r, x).ok
    requires EqualsIgnoreCase(p, r.heap[x].licensePlate.value)
    ensures FindVehicleByPlate(AddVehicle(r, x).repo, p) == Some(x)
  {
    var r' := AddVehicle(r, x).repo;
    var n := |r.vehicles|;
    assert Matches(r', n, p);
    forall j | 0 <= j < n
      ensures !Matches(r', j, p)
    {
      assert ListedPlate(r', j) == ListedPlate(r, j);
      assert !Matches(r, j, r.heap[x].licensePlate.value);
    }
  }

  /** A customer just added is what a lookup by its id finds. */
  lemma AddedCustomerFound(r: Repository, customer: Customer)
    requires AddCustomer(r, customer).ok
    ensures FindCustomerById(AddCustomer(r, customer).repo, customer.customerId) == Some(customer)
  {
    var r' := AddCustomer(r, customer).repo;
    assert r'.customers[|r.customers|] == customer;
    assert forall j :: 0 <= j < |r.customers| ==> r'.customers[j] == r.customers[j];
  }

  // ---------------------------------------------------------------------------
  // Rent and return

  /** The type of the latest record about vehicle `x`, if any. */
  function LastEvent(h: seq<RentalRecord>, x: Ref): Option<string>
  {
    if h == [] then None
    else if h[|h| - 1].vehicle == x then Some(h[|h| - 1].recordType)
    else LastEvent(h[..|h| - 1], x)
  }

  /** A vehicle is rented exactly when its latest record is a RENT. */
  predicate StatusFollowsHistory(r: Repository)
  {
    forall x :: 0 <= x < |r.heap| ==> (r.heap[x].status == Rented <==> LastEvent(r.history, x) == Some(RENT))
  }

  lemma LastEventAppend(h: seq<RentalRecord>, rec: RentalRecord, x: Ref)
    ensures LastEvent(h + [rec], x) == if rec.vehicle == x then Some(rec.recordType) else LastEvent(h, x)
  {
    assert (h + [rec])[..|h|] == h;
  }

  /** `rentVehicle`: succeeds exactly when the vehicle is `Available`; then
      the vehicle becomes `Rented` and one RENT record is appended to the
      history. Nothing is written to any file. On failure nothing changes. */
  function RentVehicle(r: Repository, x: Ref, customer: Customer, date: Date, amount: Amount): (c: Change)
    requires x < |r.heap|
    ensures c.ok <==> r.heap[x].status == Available
    ensures !c.ok ==> c.repo == r
    ensures c.ok ==> c.repo.heap == r.heap[x := SetStatus(r.heap[x], Rented)]
    ensures c.ok ==> c.repo.history == r.history + [RentalRecord(x, customer, date, amount, RENT)]
    ensures c.repo.vehicles == r.vehicles && c.repo.customers == r.customers && c.repo.files == r.files
    ensures Valid(r) ==> Valid(c.repo)
    ensures StatusFollowsHistory(r) ==> StatusFollowsHistory(c.repo)
  {
    if r.heap[x].status == Available then
      var rec := RentalRecord(x, customer, date, amount, RENT);
      var r' := r.(heap := r.heap[x := SetStatus(r.heap[x], Rented)], history := r.history + [rec]);
      assert forall y :: LastEvent(r'.history, y) == if y == x then Some(RENT) else LastEvent(r.history, y) by {
        forall y ensures LastEvent(r'.history, y) == if y == x then Some(RENT) else LastEvent(r.history, y) {
          LastEventAppend(r.history, rec, y);
        }
      }
      Change(true, r')
    else Change(false, r)
  }

  /** `returnVehicle`: succeeds exactly when the vehicle is `Rented`; then the
      vehicle becomes `Available` and one RETURN record, whose amount is the
      extra fees, is appended to the history. Nothing is written to any
      file. On failure nothing changes. */
  function ReturnVehicle(r: Repository, x: Ref, customer: Customer, date: Date, extraFees: Amount): (c: Change)
    requires x < |r.heap|
    ensures c.ok <==> r.heap[x].status == Rented
    ensures !c.ok ==> c.repo == r
    ensures c.ok ==> c.repo.heap == r.heap[x := SetStatus(r.heap[x], Available)]
    ensures c.ok ==> c.repo.history == r.history + [RentalRecord(x, customer, date, extraFees, RETURN)]
    ensures c.repo.vehicles == r.vehicles && c.repo.customers == r.customers && c.repo.files == r.files
    ensures Valid(r) ==> Valid(c.repo)
    ensures StatusFollowsHistory(r) ==> StatusFollowsHistory(c.repo)
  {
    if r.heap[x].status == Rented then
      var rec := RentalRecord(x, customer, date, extraFees, RETURN);
      var r' := r.(heap := r.heap[x := SetStatus(r.heap[x], Available)], history := r.history + [rec]);
      assert forall y :: LastEvent(r'.history, y) == if y == x then Some(RETURN) else LastEvent(r.history, y) by {
        forall y ensures LastEvent(r'.history, y) == if y == x then Some(RETURN) else LastEvent(r.history, y) {
          LastEventAppend(r.history, rec, y);
        }
      }
      Change(true, r')
    else Change(false, r)
  }

  /** Renting the same vehicle twice: the first call succeeds, the second is
      refused and leaves the vehicle `Rented`. */
  lemma RentTwice(r: Repository, x: Ref, c1: Customer, d1: Date, a1: Amount, c2: Customer, d2: Date, a2: Amount)
    requires x < |r.heap| && r.heap[x].status == Available
    ensures var first := RentVehicle(r, x, c1, d1, a1);
      && first.ok
      && !RentVehicle(first.repo, x, c2, d2, a2).ok
      && RentVehicle(first.repo, x, c2, d2, a2).repo.heap[x].status == Rented
  {
  }

  /** Returning a vehicle that is `Available` is refused and changes nothing. */
  lemma ReturnAvailableRefused(r: Repository, x: Ref, c: Customer, d: Date, fees: Amount)
    requires x < |r.heap| && r.heap[x].status == Available
    ensures ReturnVehicle(r, x, c, d, fees) == Change(false, r)
  {
  }

  /** Renting and then returning an `Available` vehicle leaves every vehicle
      object as it was and grows the history by exactly a RENT record then a
      RETURN record; the lists and files do not change. */
  lemma RentThenReturn(r: Repository, x: Ref, c: Customer, d1: Date, amount: Amount, d2: Date, fees: Amount)
    requires x < |r.heap| && r.heap[x].status == Available
    ensures var rented := RentVehicle(r, x, c, d1, amount);
      var returned := ReturnVehicle(rented.repo, x, c, d2, fees);
      && rented.ok && returned.ok
      && returned.repo.heap == r.heap
      && returned.repo.history == r.history + [RentalRecord(x, c, d1, amount, RENT), RentalRecord(x, c, d2, fees, RETURN)]
      && returned.repo.vehicles == r.vehicles && returned.repo.customers == r.customers
      && returned.repo.files == r.files
  {
    var rented := RentVehicle(r, x, c, d1, amount);
    assert rented.repo.heap[x].status == Rented;
    var returned := ReturnVehicle(rented.repo, x, c, d2, fees);
    assert returned.repo.heap == r.heap by {
      assert returned.repo.heap[x] == r.heap[x];
    }
  }
}

=== FILE: vehicle.dfy ===
/** A rentable vehicle: its value fields, the license-plate validator and
    normaliser, and the capitalisation applied to make and model. */
module Vehicles {
  import opened Wrappers
  import opened JavaText

  datatype Status = Available | Held | Rented | UnderMaintenance | OutOfService

  /** The concrete subclass together with the extra field(s) only it has. */
  datatype Variant =
    | Car(seats: int32)
    | Minibus(accessible: bool)
    | PickupTruck(cargoSize: real, hasTrailer: bool)

  /** `getClass().getSimpleName()`, the type tag written to the vehicle file. */
  function SimpleName(v: Variant): (name: string)
    ensures name == "Car" <==> v.Car?
    ensures name == "Minibus" <==> v.Minibus?
    ensures name == "PickupTruck" <==> v.PickupTruck?
  {
    match v
    case Car(_) => "Car"
    case Minibus(_) => "Minibus"
    case PickupTruck(_, _) => "PickupTruck"
  }

  /** A vehicle object. `licensePlate` is `None` (Java `null`) until the plate
      is first set. */
  datatype Vehicle = Vehicle(
    variant: Variant,
    licensePlate: Option<string>,
    make: string,
    model: string,
    year: int32,
    status: Status)

  /** Rejection of a malformed plate (`IllegalArgumentException`). */
  datatype PlateError = InvalidPlate

  // ---------------------------------------------------------------------------
  // capitalize

  /** Capitalised text: trimmed, first character not a lower-case letter, every
      other character not an upper-case letter. */
  predicate IsCapitalized(s: string)
  {
    s == [] ||
    (&& !IsWhite(s[0]) && !IsWhite(s[|s| - 1])
     && !IsAsciiLower(s[0])
     && forall i :: 1 <= i < |s| ==> !IsAsciiUpper(s[i]))
  }

  /** Make and model normalisation: `null` or blank text becomes empty;
      anything else is trimmed, then its first character is upper-cased and
      the rest lower-cased. */
  function Capitalize(input: Option<string>): (r: string)
    ensures input.None? || IsBlank(input.value) ==> r == []
    ensures input.Some? && !IsBlank(input.value) ==>
      |r| == |Trim(input.value)| && EqualsIgnoreCase(r, Trim(input.value))
    ensures IsCapitalized(r)
  {
    if input.None? then []
    else
      var trimmed := Trim(input.value);
      if trimmed == [] then []
      else
        CapitalizeShape(trimmed);
        var r := CapitalizeNonEmpty(trimmed);
        assert !IsBlank(input.value);
        assert |r| == |trimmed| && EqualsIgnoreCase(r, trimmed) && IsCapitalized(r);
        r
  }

  /** Upper-case the first character and lower-case the rest. */
  function CapitalizeNonEmpty(t: string): string
    requires t != []
  {
    var lower := ToLower(t);
    [UpperChar(lower[0])] + lower[1..]
  }

  lemma CapitalizeShape(t: string)
    requires t != [] && !IsWhite(t[0]) && !IsWhite(t[|t| - 1])
    ensures var r := CapitalizeNonEmpty(t);
      |r| == |t| && EqualsIgnoreCase(r, t) && IsCapitalized(r)
  {
    var r := CapitalizeNonEmpty(t);
    forall i | 0 <= i < |t|
      ensures UpperChar(r[i]) == UpperChar(t[i])
      ensures IsWhite(r[i]) <==> IsWhite(t[i])
      ensures i > 0 ==> !IsAsciiUpper(r[i])
    {
      CaseChar(t[i]);
      CaseChar(LowerChar(t[i]));
    }
    assert ToUpper(r) == ToUpper(t);
  }

  /** Capitalised text is left as it is. */
  lemma CapitalizeFixpoint(s: string)
    requires IsCapitalized(s)
    ensures Capitalize(Some(s)) == s
  {
    if s != [] {
      TrimUnpadded(s);
      var r := CapitalizeNonEmpty(s);
      forall i | 0 <= i < |s|
        ensures r[i] == s[i]
      {
        CaseChar(s[i]);
      }
      assert r == s;
    }
  }

  /** Capitalising twice is the same as capitalising once. */
  lemma CapitalizeIdempotent(input: Option<string>)
    ensures Capitalize(Some(Capitalize(input))) == Capitalize(input)
  {
    CapitalizeFixpoint(Capitalize(input));
  }

  // ---------------------------------------------------------------------------
  // License plates

  /** The pattern `[A-Z]{3}[0-9]{3}` the stored plate must match. */
  predicate PlatePattern(u: string)
  {
    && |u| == 6
    && IsAsciiUpper(u[0]) && IsAsciiUpper(u[1]) && IsAsciiUpper(u[2])
    && IsDigit(u[3]) && IsDigit(u[4]) && IsDigit(u[5])
  }

  /** Three ASCII letters in either case followed by three digits. */
  predicate CaselessPlate(t: string)
  {
    && |t| == 6
    && IsAsciiLetter(t[0]) && IsAsciiLetter(t[1]) && IsAsciiLetter(t[2])
    && IsDigit(t[3]) && IsDigit(t[4]) && IsDigit(t[5])
  }

  /** The plate validator: absent and blank input are rejected; otherwise the
      trimmed, upper-cased text must match `[A-Z]{3}[0-9]{3}`. */
  function IsValidPlate(plate: Option<string>): (ok: bool)
    ensures ok <==> plate.Some? && CaselessPlate(Trim(plate.value))
  {
    if plate.None? then false
    else
      var trimmed := Trim(plate.value);
      if trimmed == [] then false
      else
        var upper := ToUpper(trimmed);
        assert |trimmed| == 6 ==>
          forall i :: 0 <= i < 6 ==>
            && (IsAsciiUpper(upper[i]) <==> IsAsciiLetter(trimmed[i]))
            && (IsDigit(upper[i]) <==> IsDigit(trimmed[i]));
        PlatePattern(upper)
  }

  /** Setting the plate: a valid plate is stored trimmed and upper-cased and
      nothing else changes; an invalid one is refused and the vehicle keeps
      its previous plate. */
  function SetLicensePlate(v: Vehicle, plate: Option<string>): (r: Result<Vehicle, PlateError>)
    ensures r.Success? <==> plate.Some? && CaselessPlate(Trim(plate.value))
    ensures r.Success? ==> r.value == v.(licensePlate := Some(ToUpper(Trim(plate.value))))
    ensures r.Success? ==> PlatePattern(r.value.licensePlate.value)
  {
    if !IsValidPlate(plate) then Failure(InvalidPlate)
    else
      var stored := ToUpper(Trim(plate.value));
      assert ToUpper(stored) == stored;
      Success(v.(licensePlate := Some(stored)))
  }

  /** Setting a plate to the value already stored is accepted and changes nothing. */
  lemma SetStoredPlate(v: Vehicle)
    requires v.licensePlate.Some? && PlatePattern(v.licensePlate.value)
    ensures SetLicensePlate(v, v.licensePlate) == Success(v)
  {
    var p := v.licensePlate.value;
    TrimUnpadded(p);
    assert ToUpper(p) == p;
  }

  /** The plates the unit test accepts are stored verbatim. */
  lemma PlateTestAccepts(v: Vehicle)
    ensures forall p | p in ["AAA100", "ABC567", "ZZZ999"] ::
      SetLicensePlate(v, Some(p)) == Success(v.(licensePlate := Some(p)))
  {
    forall p | p in ["AAA100", "ABC567", "ZZZ999"]
      ensures SetLicensePlate(v, Some(p)) == Success(v.(licensePlate := Some(p)))
    {
      PlateAccepted(v, p);
    }
  }

  lemma PlateAccepted(v: Vehicle, p: string)
    requires PlatePattern(p)
    ensures SetLicensePlate(v, Some(p)) == Success(v.(licensePlate := Some(p)))
  {
    SetStoredPlate(v.(licensePlate := Some(p)));
  }

  /** The plates the unit test refuses: empty, absent, too many digits, too few. */
  lemma PlateTestRejects(v: Vehicle)
    ensures SetLicensePlate(v, Some("")).Failure?
    ensures SetLicensePlate(v, None).Failure?
    ensures SetLicensePlate(v, Some("AAA1000")).Failure?
    ensures SetLicensePlate(v, Some("ZZZ99")).Failure?
  {
    PlateWrongLength(v, "");
    PlateWrongLength(v, "AAA1000");
    PlateWrongLength(v, "ZZZ99");
  }

  lemma PlateWrongLength(v: Vehicle, p: string)
    requires p == [] || (!IsWhite(p[0]) && !IsWhite(p[|p| - 1]))
    requires |p| != 6
    ensures SetLicensePlate(v, Some(p)).Failure?
  {
    TrimUnpadded(p);
  }

  /** Case does not matter: lower-casing the input neither changes whether
      it is accepted nor what is stored. */
  lemma PlateIgnoresCase(v: Vehicle, s: string)
    ensures SetLicensePlate(v, Some(ToLower(s))) == SetLicensePlate(v, Some(s))
  {
    TrimToLower(s);
    LowerKeepsPlateShape(Trim(s));
  }

  lemma LowerKeepsPlateShape(t: string)
    ensures CaselessPlate(ToLower(t)) <==> CaselessPlate(t)
    ensures ToUpper(ToLower(t)) == ToUpper(t)
  {
    forall i | 0 <= i < |t|
      ensures UpperChar(LowerChar(t[i])) == UpperChar(t[i])
      ensures IsAsciiLetter(LowerChar(t[i])) <==> IsAsciiLetter(t[i])
      ensures IsDigit(LowerChar(t[i])) <==> IsDigit(t[i])
    {
      CaseChar(t[i]);
    }
  }

  // ---------------------------------------------------------------------------
  // Construction and status

  /** The constructor: make and model are capitalised, the status starts as
      `Available`, and no plate is set yet. */
  function New(variant: Variant, make: Option<string>, model: Option<string>, year: int32): (r: Vehicle)
    ensures r.status == Available && r.licensePlate.None?
    ensures r.variant == variant && r.year == year
    ensures r.make == Capitalize(make) && r.model == Capitalize(model)
    ensures IsCapitalized(r.make) && IsCapitalized(r.model)
  {
    Vehicle(variant, None, Capitalize(make), Capitalize(model), year, Available)
  }

  /** The no-argument constructor passes `null` make and model and year 0:
      make and model come out empty. */
  lemma NoArgConstructor(variant: Variant)
    ensures New(variant, None, None, 0) == Vehicle(variant, None, [], [], 0, Available)
  {
  }

  /** `setStatus` changes the status and no other field. */
  function SetStatus(v: Vehicle, status: Status): (r: Vehicle)
    ensures r.status == status
    ensures r.variant == v.variant && r.licensePlate == v.licensePlate
    ensures r.make == v.make && r.model == v.model && r.year == v.year
  {
    v.(status := status)
  }

  /** Setting a status and then the previous one gives back the same vehicle. */
  lemma SetStatusUndo(v: Vehicle, status: Status)
    ensures SetStatus(SetStatus(v, status), v.status) == v
  {
  }
}

=== FILE: wrappers.dfy ===
/** Absent-or-present values and success-or-failure results, standing in for
    Java's `null` and for the exceptions the modelled code throws. */
module Wrappers {

  /** `None` plays the part of a Java `null` reference. */
  datatype Option<+T> = None | Some(value: T)

  /** `Failure` plays the part of a thrown exception. */
  datatype Result<+T, +E> = Success(value: T) | Failure(error: E)
}
